=== FILE: README.md ===
# WebUI client core of libAurora.php, in Dafny

This project models the self-contained logic of `Aurora\Addon\WebUI`, the PHP
client for the WebUI API of an Aurora grid server. In that class, most methods
check their arguments in an ordered `if/else if` chain and throw the first error
that applies. Some first fill in defaults and coerce digit strings to integers
(GetRegions), a few run more than one chain, and a few check nothing. A method
then builds a request map and hands it to `makeCallToAPI`, which belongs to the
parent class. Some methods post-process the validated answer.

The model covers:

- **PHP values** (`php_values.dfy`). `isset` is modelled as not-null.
  `ctype_digit` and the `(integer)` cast are modelled too; the cast saturates at
  `PHP_INT_MAX`. `trim` strips space, tab, LF, CR, NUL and vertical tab.
  `ctype_graph` is covered, and so is property access on a decoded object.
- **UUIDs** (`uuid.dfy`). `regex_UUID` is written out as a predicate. It has
  the 8-4-4-4-12 hex shape, and because the pattern ends in `$` without the D
  modifier it also accepts a final newline. The client compares `preg_match`
  with the UUID pattern in two ways: `!== 1` and `=== false`. The second never
  rejects anything.
- **Argument errors** (`arguments.dfy`). These are the exceptions the argument
  chains raise, plus the UUID check that most methods start with.
- **Passwords** (`passwords.dfy`). A password field is `'$1$'` followed by
  either the remainder of an input that already starts with `'$1$'` or
  `md5(input)`. The file also has the new-password checks and the request maps
  of ChangePassword and ForgotPassword.
- **Registries** (`registries.dfy`). `Configs` and `BoolWORM` are classes over
  a `data` map:
  - `Configs::offsetSet` never overwrites an entry.
  - `Configs::d` reads offset 0.
  - The `BoolWORM` constructor loop checks its entries against the key
    pattern `^[A-z][A-z0-9]*$`.
  - `BoolWORM::offsetSet` validates its arguments and then stores nothing.
- **Region requests** (`region_requests.dfy`). GetRegions and
  GetRegionsInEstate:
  - GetRegions first turns null flags into `RegionFlags::RegionOnline` and
    null exclude flags into 0, then coerces digit strings to integers;
  - the count check is `else if(isset($count))`, so the sort-flag checks are
    reached only when the count is null;
  - the optional sort keys are added to the request only when set;
  - GetRegionsInEstate's `Sort` map tests the region-name flag twice and never
    tests the x-axis flag.
- **Other requests** (`requests.dfy`). CreateEvent, EditGroupNotice, GetParcel,
  GetGroup, SetHomeLocation and DeleteUser, up to the remote call.
- **Responses** (`responses.dfy`). Four pieces of post-processing:
  - the names/snapshots zip of GetAvatarArchives;
  - ConfirmUserEmailName's argument checks and its `ErrorCode` mapping;
  - GetGridUserInfo's request, and its `false`-to-null mapping of LastLogin and
    LastLogout;
  - CreateAccount's checks on the UUID and activation token it gets back.
- **Client** (`client.dfy`). The client object:
  - `get_grid_info` fetches the grid information once into its `GridInfo`
    field and then serves it from there.
  - ChangePassword and GetAvatarArchives are wired through an abstract API
    object that records every call.

## Model

All source paths are in `Aurora/Addon/WebUI.php`.

| member | source | states |
|---|---|---|
| Uuid.UuidFromGroups | Aurora/Addon/WebUI.php:54 | Five hex groups of lengths 8, 4, 4, 4 and 12, joined by hyphens, satisfy the UUID pattern. |
| Uuid.UuidToGroups | Aurora/Addon/WebUI.php:54 | Every UUID is five hex groups of lengths 8, 4, 4, 4 and 12 joined by hyphens, in upper or lower case. |
| Uuid.NilUuidIsUuid | Aurora/Addon/WebUI.php:54 | The all-zero UUID the client sends as "no parcel" and "no scope" satisfies the pattern. |
| Uuid.TrailingNewlineMatches | Aurora/Addon/WebUI.php:54 | A UUID followed by "\n" passes the pattern's `$` but is not a 36-character UUID. |
| Uuid.UuidChecksCompared | Aurora/Addon/WebUI.php:255 | `preg_match(...) !== 1` rejects exactly the strings that do not match; `preg_match(...) === false` rejects none. |
| Arguments.CheckUuid | Aurora/Addon/WebUI.php:500-503 | Passes exactly for strings matching the UUID pattern; otherwise raises "not a string" or "not a valid UUID", in that order. |
| Arguments.FirstFailure | Aurora/Addon/WebUI.php:495-519 | An argument chain passes exactly when every check passes; otherwise it raises the error of some check, and every check before that one passed. |
| Arguments.FirstFailureCons | Aurora/Addon/WebUI.php:500-512 | The first failure of a chain is its first check when that one fails, and otherwise the first failure of the rest. |
| Arguments.FirstFailureOfSeven | Aurora/Addon/WebUI.php:2675-2703 | A seven-step `if/else if` chain raises exactly the first failure of its seven checks. |
| PhpValues.Decimal | Aurora/Addon/WebUI.php:992-997 | The rendering of a natural number is a digit string, with a leading '0' only for zero. |
| PhpValues.IntText | Aurora/Addon/WebUI.php:2818 | An integer array key reads as a non-empty string that starts with '-' or a digit. |
| PhpValues.DecimalRoundTrip | Aurora/Addon/WebUI.php:992-997 | Reading a rendered natural number back gives the number. |
| PhpValues.LeadingZeroIgnored | Aurora/Addon/WebUI.php:992-997 | A leading zero does not change the value of a digit string. |
| PhpValues.CoerceIgnoresLeadingZero | Aurora/Addon/WebUI.php:1512-1523 | A zero-padded digit string is still a digit string and coerces to the same integer. |
| PhpValues.CoerceDigits | Aurora/Addon/WebUI.php:992-997 | The result is an integer exactly when the input is an integer or a digit string; a coerced digit string lies in 0..PHP_INT_MAX; any other value is unchanged. |
| PhpValues.CoerceRendered | Aurora/Addon/WebUI.php:1512-1523 | Coercing the digit-string rendering of an integer in range gives that integer back. |
| PhpValues.CoerceDigitString | Aurora/Addon/WebUI.php:1512-1523 | A digit string whose value is within PHP_INT_MAX is coerced to exactly that integer. |
| PhpValues.CoerceSaturates | Aurora/Addon/WebUI.php:1512-1523 | A digit string whose value exceeds PHP_INT_MAX is coerced to PHP_INT_MAX. |
| PhpValues.CoerceRenderedSaturates | Aurora/Addon/WebUI.php:1512-1523 | The digit-string rendering of any integer above PHP_INT_MAX is coerced to PHP_INT_MAX. |
| PhpValues.TrimLeft | Aurora/Addon/WebUI.php:851-852 | The result is a suffix of the input, does not start with whitespace, and only whitespace was removed. |
| PhpValues.TrimRight | Aurora/Addon/WebUI.php:851-852 | The result is a prefix of the input, does not end with whitespace, and only whitespace was removed. |
| PhpValues.Trim | Aurora/Addon/WebUI.php:851-852 | The result is a contiguous slice of the input with no whitespace at either end; TrimRemovesOnlyWhitespace adds that everything cut off is whitespace. |
| PhpValues.TrimRemovesOnlyWhitespace | Aurora/Addon/WebUI.php:851-852 | Every character before and after the slice `trim` keeps is whitespace. |
| PhpValues.TrimRightInside | Aurora/Addon/WebUI.php:851-852 | Whitespace at the end of a suffix is whitespace at the same place in the whole string. |
| PhpValues.TrimKeepsClean | Aurora/Addon/WebUI.php:851-852 | A string without surrounding whitespace is left unchanged. |
| PhpValues.TrimDropsLeading | Aurora/Addon/WebUI.php:851-852 | A leading whitespace character does not change the trimmed result. |
| PhpValues.TrimIdempotent | Aurora/Addon/WebUI.php:851-852 | Trimming twice is the same as trimming once. |
| PhpValues.TrimBlank | Aurora/Addon/WebUI.php:508 | `trim($s) === ''` holds exactly for whitespace-only strings. |
| PhpValues.Property | Aurora/Addon/WebUI.php:130 | Reading a property gives none exactly when no field has that name, and otherwise a value some field of that name carries. |
| PhpValues.FieldMapAgrees | Aurora/Addon/WebUI.php:130-132 | Copying an object's properties one by one into a map keeps exactly its names, and each with the value a property read gives. |
| Passwords.PasswordField | Aurora/Addon/WebUI.php:516-517 | The field always starts with "$1$". An input with that prefix is sent verbatim; any other input is sent as "$1$" plus its md5. |
| Passwords.LoginHashForwarded | Aurora/Addon/WebUI.php:516-517 | The hash written out as `'$1$' . md5(...)` at WebUI.php:222, 329 and 359 is what the password rule sends: a field it built is forwarded unchanged, any input without the prefix gets that same field, and the field carries md5 of the input after "$1$". |
| Passwords.PasswordFieldIdempotent | Aurora/Addon/WebUI.php:516-517 | Applying the rule to its own output changes nothing. |
| Passwords.CheckNewPassword | Aurora/Addon/WebUI.php:506-512 | Passes exactly for a string that is not blank and has at least 8 characters. Otherwise it raises, in order: not a string; empty when blank; too short (a LengthException) when shorter than 8 characters. Each error is stated as an if-and-only-if. |
| Passwords.BlankPasswordIsEmpty | Aurora/Addon/WebUI.php:508-509 | A whitespace-only password of any length is refused as empty. |
| Passwords.ChangePasswordRequest | Aurora/Addon/WebUI.php:495-519 | Raises the first failure of the UUID check, the old-password string check and the new-password checks, in that order. On success the map holds exactly UUID, Password and NewPassword, built by the "$1$" rule. |
| Passwords.ForgotPasswordRequest | Aurora/Addon/WebUI.php:528-549 | Raises the first failure of the UUID check and the new-password checks, in that order. On success the map holds exactly UUID and Password. |
| Passwords.PrehashedPasswordForwarded | Aurora/Addon/WebUI.php:510-517 | A "$1$"-prefixed new password of 8 or more characters is accepted and forwarded unchanged. |
| Registries.ConfigsSetSpec | Aurora/Addon/WebUI.php:2789-2802 | offsetSet fails, in order, for a non-client value, a non-integer offset and an occupied slot, always with an InvalidArgumentException. Otherwise it adds exactly one entry at the offset (or at count()) and keeps the rest. |
| Registries.AppendKeepsDense | Aurora/Addon/WebUI.php:2796-2802 | Appending to a table with keys 0..count()-1 always succeeds and keeps it that way. |
| Registries.SparseAppendCollides | Aurora/Addon/WebUI.php:2796-2802 | After an explicit write at offset 1 into an empty table, an append collides and fails. |
| Registries.Configs.constructor | Aurora/Addon/WebUI.php:2763 | A new registry is empty. |
| Registries.Configs.OffsetSet | Aurora/Addon/WebUI.php:2789-2803 | The new table is the one the specification gives; a failure leaves the table unchanged; only clients are ever stored. |
| Registries.Configs.D | Aurora/Addon/WebUI.php:2781-2786 | Fails, with a BadMethodCallException, exactly when offset 0 is absent; otherwise returns the client stored there. |
| Registries.NonStringKeysRejected | Aurora/Addon/WebUI.php:2818 | Null and integer keys never pass the key pattern. |
| Registries.PunctuationKeysAccepted | Aurora/Addon/WebUI.php:2818 | `[A-z]` admits "_", "^x" and "`1"; it refuses "1a" and "a-b". |
| Registries.FirstEntryErrorNone | Aurora/Addon/WebUI.php:2814-2821 | The constructor raises nothing exactly when every value is boolean and every key matches the pattern. |
| Registries.FirstEntryErrorIsFirst | Aurora/Addon/WebUI.php:2814-2821 | The error raised is the one for the first bad entry, and every entry before it is valid. |
| Registries.BoolMap | Aurora/Addon/WebUI.php:2821 | The stored table has a key for every entry, and every key matches the pattern. |
| Registries.BoolMapKeys | Aurora/Addon/WebUI.php:2821 | Every key of the stored table comes from some entry. |
| Registries.BoolMapValues | Aurora/Addon/WebUI.php:2813-2821 | For valid entries, a key holds the value of the last entry with that key. |
| Registries.BoolWormSet | Aurora/Addon/WebUI.php:2834-2842 | Passes exactly for a boolean value whose key matches the pattern and is absent. A non-boolean is refused first, and an existing key is refused as an overwrite; only the overwrite is a BadMethodCallException. |
| Registries.BoolWorm.FromEntries | Aurora/Addon/WebUI.php:2813-2821 | The table built from valid entries is their map, and every key in it matches the pattern. |
| Registries.BoolWorm.CheckEntries | Aurora/Addon/WebUI.php:2814-2820 | The loop returns exactly the error of the first invalid entry, or none. |
| Registries.BoolWorm.F | Aurora/Addon/WebUI.php:2829-2831 | Fails with the first entry error exactly when there is one. Otherwise it gives a fresh valid table of the entries. |
| Registries.BoolWorm.OffsetSet | Aurora/Addon/WebUI.php:2834-2842 | Returns what BoolWormSet specifies and stores nothing: after a pass the key is still absent. |
| RegionRequests.CountShadowsSortChecks | Aurora/Addon/WebUI.php:1537-1550 | With a set count, only the count decides; with a null count, every set sort flag must be boolean. |
| RegionRequests.BuildGetRegions | Aurora/Addon/WebUI.php:1525-1567 | Succeeds exactly when the chain passes, and fails with the first error of the chain. The map then holds valid flags, an integer start, a null or positive count, and each sort key, with its value (TRUE ascending, FALSE descending) as the caller gave it, exactly when that flag is set, and no other keys. |
| RegionRequests.GetRegionsRequest | Aurora/Addon/WebUI.php:1505-1567 | GetRegions up to the remote call: on success it sends the defaulted and coerced flags, exclude flags, start and count, and each set sort flag as given. GetRegionsDefaults, GetRegionsSeesCoercedValues, GetRegionsDigitStrings and GetRegionsZeroPadded state its defaulting and coercion for all inputs. |
| RegionRequests.SortFlagUncheckedWithCount | Aurora/Addon/WebUI.php:1537-1543 | With a positive count, a sort flag of any type is accepted and forwarded. |
| RegionRequests.SortFlagCheckedWithoutCount | Aurora/Addon/WebUI.php:1544-1547 | With a null count, a string sort flag is refused as not boolean. |
| RegionRequests.GetRegionsSeesCoercedValues | Aurora/Addon/WebUI.php:1512-1523 | GetRegions depends on its set numeric arguments only through their coerced values. |
| RegionRequests.GetRegionsDefaults | Aurora/Addon/WebUI.php:1505-1511 | Null flags behave as RegionOnline and null exclude flags as 0, whatever the other arguments; with both null the chain sees exactly those integers and the coerced start and count. |
| RegionRequests.GetRegionsZeroPadded | Aurora/Addon/WebUI.php:1518-1523 | Zero-padding a digit-string start and count does not change the outcome. |
| RegionRequests.GetRegionsDigitStrings | Aurora/Addon/WebUI.php:1512-1523 | Digit strings give the same outcome as the integers they denote. |
| RegionRequests.EstateSort | Aurora/Addon/WebUI.php:1726-1737 | The Sort map exists exactly when the region-name or y-axis flag is set, and holds a key, with the caller's flag as its value, for each set flag. |
| RegionRequests.GetRegionsInEstateRequest | Aurora/Addon/WebUI.php:1691-1737 | Succeeds exactly when the chain passes, with no coercion, and otherwise raises the chain's first error. The map holds Estate, RegionFlags, Start and Count, plus Sort exactly when EstateSort gives one. |
| RegionRequests.EstateSortDropsLocXAlone | Aurora/Addon/WebUI.php:1726 | An x-axis sort flag alone is dropped; a y-axis flag alone is sent. |
| Requests.CreateEventRequest | Aurora/Addon/WebUI.php:2652-2717 | Raises the first failure of seven checks in source order: cover, maturity and flags non-negative integers, duration a positive integer, then name, description and category not blank, all after coercion and trimming. The request carries the coerced numbers, the trimmed texts and the nil UUID as parcel. |
| Requests.CreateEventChainIsFirstFailure | Aurora/Addon/WebUI.php:2675-2703 | The nested checks of CreateEvent raise exactly the first failure of the seven checks, in source order. |
| Requests.CreateEventCheckOrder | Aurora/Addon/WebUI.php:2675-2703 | With valid numbers, a whitespace-only name is refused as empty. A "0" duration is refused before any text is looked at. |
| Requests.NoticeTextError | Aurora/Addon/WebUI.php:2437-2444 | Raises the first failure of the subject check and then the message check; each given text must be a non-blank string. |
| Requests.EditGroupNoticePlan | Aurora/Addon/WebUI.php:2436-2468 | As written: returns unchanged exactly when the texts pass and either of them is null. An edit is sent exactly when the texts pass, both are given and the notice UUID is valid. A failure is the text error, or else the notice UUID error. |
| Requests.SubjectOnlyEditDropped | Aurora/Addon/WebUI.php:2445-2447 | A new subject given alone returns unchanged without any call, even for an invalid notice. |
| Requests.EditGroupNoticeIntended | Aurora/Addon/WebUI.php:2445-2466 | Returns unchanged only when neither text is given. An edit is sent exactly when the texts pass, at least one is given and the notice UUID is valid; it carries each given text, trimmed, with the notice id. A failure is the text error, or else the notice UUID error. |
| Requests.EditGroupNoticeVersionsCompared | Aurora/Addon/WebUI.php:2445-2466 | The two versions agree when both or neither text is given, and differ exactly on a lone text. |
| Requests.EditGroupNoticeBothOrNeither | Aurora/Addon/WebUI.php:2445-2466 | With both texts or neither given, the as-written and the intended versions give the same result. |
| Requests.GetParcelRequest | Aurora/Addon/WebUI.php:2012-2031 | Raises the first failure of: parcel a string, scope a valid UUID, and a region given for a lookup by name. A UUID parcel is sent as ParcelInfoUUID; a name is sent trimmed, with RegionID and ScopeID. |
| Requests.ParcelLookedUpByName | Aurora/Addon/WebUI.php:2022-2028 | A parcel that does not match the pattern, with a region and a valid scope, is sent as RegionID, ScopeID and the trimmed Parcel name. |
| Requests.PaddedUuidDoesNotMatch | Aurora/Addon/WebUI.php:2022 | A UUID with one leading space does not match the UUID pattern. |
| Requests.PaddedUuidTrimmed | Aurora/Addon/WebUI.php:2028 | Trimming a UUID with one leading space gives the UUID back. |
| Requests.PaddedParcelUuidIsAName | Aurora/Addon/WebUI.php:2021-2028 | A UUID with a leading space is looked up as a parcel name, trimmed. |
| Requests.GetGroupRequest | Aurora/Addon/WebUI.php:2244-2260 | Fails exactly for non-strings. A trimmed argument matching the pattern is sent as UUID, otherwise as Name, and a UUID sent is always exactly 36 characters. |
| Requests.SetHomeLocationRequest | Aurora/Addon/WebUI.php:875-896 | Succeeds exactly for a valid user UUID. The map holds User, plus RegionID, Position and LookAt exactly when each is given. |
| Requests.DeleteUserRequest | Aurora/Addon/WebUI.php:847-865 | As written: succeeds for every string (or user object), sending it trimmed; only non-strings are refused. |
| Requests.DeleteUserSendsAnyString | Aurora/Addon/WebUI.php:855-857 | A string that is not a UUID is still sent for deletion. |
| Requests.DeleteUserIntended | Aurora/Addon/WebUI.php:847-865 | With a `!== 1` check: raises exactly what the UUID check raises on the trimmed argument, and the id sent on success is an exact UUID. |
| Responses.Zip | Aurora/Addon/WebUI.php:283-286 | The i-th archive pairs the i-th name with the i-th snapshot. |
| Responses.Names | Aurora/Addon/WebUI.php:283-286 | Reads back the name of each archive, in order. |
| Responses.Snapshots | Aurora/Addon/WebUI.php:283-286 | Reads back the snapshot of each archive, in order. |
| Responses.ZipUnzip | Aurora/Addon/WebUI.php:279-288 | Zipping loses nothing: the names and the snapshots are recovered from the archives. |
| Responses.ZipArchives | Aurora/Addon/WebUI.php:279-288 | Raises a LengthException exactly when the counts differ; otherwise the loop builds the zip of the two lists. |
| Responses.ConfirmUserEmailNameRequest | Aurora/Addon/WebUI.php:450-464 | Raises the first failure of: name a non-blank string, email a string, and email accepted by is_email. The name is sent trimmed and the email as given. |
| Responses.ConfirmUserEmailNameResult | Aurora/Addon/WebUI.php:467-482 | Returns Verified exactly when ErrorCode is null or absent. A non-integer code is of unexpected type. The exception is an InvalidArgumentException exactly for codes 1, 2 and 3. |
| Responses.ErrorCodesRoundTrip | Aurora/Addon/WebUI.php:469-478 | Each account error is raised by exactly its own code; the string "1" is of unexpected type. |
| Responses.GetGridUserInfoRequest | Aurora/Addon/WebUI.php:717-726 | Raises exactly what the UUID check raises on the user id, and otherwise sends it as UUID. |
| Responses.LastSeen | Aurora/Addon/WebUI.php:737-738 | On values the schema admits, the result is null exactly for false and is the integer otherwise. |
| Responses.LastSeenField | Aurora/Addon/WebUI.php:706-707 | The inverse of LastSeen on the values the schema admits, as LastSeenRoundTrip proves: null maps back to false and an integer is kept. |
| Responses.LastSeenRoundTrip | Aurora/Addon/WebUI.php:706-738 | The mapping is a bijection between the schema's false-or-integer and null-or-integer. |
| Responses.RegistrationResult | Aurora/Addon/WebUI.php:255-264 | The nil UUID means registration failed. When activation is required, a token that does not match the pattern is refused. The `=== false` UUID check never fires. |
| Client.Api.MakeCall | Aurora/Addon/WebUI.php:125 | A call is appended to the log and answered by the API's response for that call number. |
| Client.ViewOf | Aurora/Addon/WebUI.php:135 | Gives a single entry exactly when info is a ctype_graph string, and the whole table otherwise. |
| Client.GridInfoEntryIsProperty | Aurora/Addon/WebUI.php:129-135 | The entry returned for a key is that property of the answer's GridInfo object. |
| Client.WebUI.GetGridInfo | Aurora/Addon/WebUI.php:123-136 | A filled cache is reused, with no call and no change. An empty cache makes exactly one call, whose answer is copied property by property. A failed call is reported as such and leaves the cache empty. |
| Client.WebUI.ChangePassword | Aurora/Addon/WebUI.php:495-520 | A refused argument sends nothing. Otherwise exactly one call carries the request map, and the answer's Verified is returned. |
| Client.WebUI.GetAvatarArchives | Aurora/Addon/WebUI.php:273-288 | Exactly one call is made. A failed call is reported as such; mismatched list counts raise a LengthException; otherwise the zip of the two lists is returned. |

## Left out

- `makeCallToAPI` and its schema validator are defined in the parent class
  `abstractPasswordAPI`, which is not part of this model. `Client.Api` answers
  each call with an arbitrary fixed function of the call number and the call.
  A method that reads a missing property gets null.
- Only `get_grid_info`, ChangePassword and GetAvatarArchives are wired through
  `Client.Api`. The other methods are modelled up to the request map they would
  send, and their remote calls are left out.
- `md5`, `is_email`, `RegionFlags::isValid`, `RegionFlags::RegionOnline`,
  `DateTime::format`, the string form of `Vector3`, and the `RegionID()`,
  `EstateID()`, `PrincipalID()` and `NoticeID()` accessors are library or
  other-file code. They appear as parameters, or as the ids inside instance
  values.
- Value-object factories (`GridUserInfo::r`, `GroupRecord::r`, `LandData::r`,
  `basicAvatarArchive`, …) and the `hasInstance` iterator caches are defined in
  other files. Archives are pairs, and the branch that reuses a cached iterator
  is not modelled.
- `Configs::i()` is a static singleton. `Configs.D` reads the registry instance
  it is given instead.
- `GridInfo::f()` and its `offsetGet` are not part of this model. The cache is
  a map, and a key that is absent reads as none.
- Client.WebUI.GetGridInfo: does not model iterating an answer whose
  `GridInfo` is not an object. The validator's schema demands one, and the
  model copies nothing in that case.
- Client.WebUI.GetAvatarArchives: does not model non-array `names` or
  `snapshot`. The schema demands arrays, and the model reports such an answer
  as an API failure.
- Passwords.CheckNewPassword: counts characters where `strlen` counts bytes.
  The two agree on ASCII passwords only.
- RegionRequests.BuildGetRegions: PHP 8's loose `$excludeFlags < 0` is
  approximated for strings. A string counts as below zero when it is empty or
  its first character sorts before '0'. This differs from PHP for numeric
  strings that start with '+', '.' or whitespace, such as "+5", ".5" and " 5",
  and for negative zero such as "-0"; it agrees on "-.5" and on non-numeric
  strings. Floats are compared as reals.
- Registries.BoolWorm.OffsetSet: offsets of other types (floats, booleans) are
  not modelled. Keys are null, integers or strings. PHP's folding of
  numeric-string array keys into integers is also not modelled.
- The remaining WebUI methods are not modelled beyond the checks they share
  with the ones above: CreateAccount's arguments, login, EditUser, FindUsers,
  the texture, friends, group-membership and parcel-listing calls.
- Floating-point fields of answers are only passed through, and are not
  modelled.

## Findings

| source | as written | input that shows it | evidently intended | confidence | as-written member | corrected member |
|---|---|---|---|---|---|---|
| Aurora/Addon/WebUI.php:2445-2447 | `isset($subject, $message) === false` returns true when either text is null | subject "New", message null: true is returned, nothing is sent and the notice is not checked | return early only when both are null, as the comment and the separate `isset` guards at 2461-2466 show | high; not executed | Requests.EditGroupNoticePlan | Requests.EditGroupNoticeIntended |
| Aurora/Addon/WebUI.php:855-857 | `preg_match(...) === false` never holds for a string subject | "not-a-uuid": sent to DeleteUser as UserID | `!== 1`, as ChangePassword, GetGridUserInfo and most UUID argument checks use (EditUser at 622 and ResetAvatar at 672 share the same `=== false`) | high; not executed | Requests.DeleteUserRequest | Requests.DeleteUserIntended |

=== FILE: arguments.dfy ===
/**
 * The argument errors the WebUI client raises before it calls the remote API,
 * and the checks that recur in its `if/else if` chains.
 */
module Arguments {
  import opened Wrappers
  import opened PhpValues
  import opened Uuid

  /**
   * One argument error; `param` names the argument the exception message is
   * about. Each is an InvalidArgumentException except TooShort, a LengthException.
   */
  datatype ArgError =
    | NotString(param: string)     // "... must be (specified as) a string"
    | NotUuid(param: string)       // "... was not a valid UUID"
    | NotInteger(param: string)    // "... must be (specified as) an integer"
    | NotBoolean(param: string)    // "... must be a boolean"
    | Empty(param: string)         // "... cannot be an empty string"
    | Negative(param: string)      // "... cannot be less than zero"
    | NotPositive(param: string)   // "... must be greater than zero"
    | InvalidFlags(param: string)  // "... value is invalid"
    | TooShort(param: string)      // "... cannot be less than 8 characters long"
    | InvalidEmail(param: string)  // "Email address is invalid."
    | RegionRequired               // "... the region must be specified."
  {
    function Kind(): ExceptionKind
    {
      if TooShort? then Length else InvalidArgument
    }
  }

  /** `if($v instanceof C) $v = $v->PrincipalID();` (or `->NoticeID()`). */
  function Unwrap(v: Value, c: Class): Value
  {
    if IsInstanceOf(v, c) then Str(v.ident) else v
  }

  /**
   * The pair `is_string($v) === false` then `preg_match(self::regex_UUID, $v) !== 1`,
   * which every method taking a UUID starts with.
   */
  function CheckUuid(v: Value, param: string): (r: Outcome<ArgError>)
    ensures r.Pass? <==> v.Str? && MatchesUuidPattern(v.s)
    ensures r.Fail? ==> r.error == (if v.Str? then NotUuid(param) else NotString(param))
  {
    if !v.Str? then Fail(NotString(param))
    else if RejectedByStrictCheck(v.s) then Fail(NotUuid(param))
    else Pass
  }

  /** `is_string($v) === false` on its own. */
  function CheckString(v: Value, param: string): Outcome<ArgError>
  {
    if v.Str? then Pass else Fail(NotString(param))
  }

  /** A string that must not be blank: `is_string` first, then `trim($v) === ''`. */
  function CheckText(v: Value, param: string): Outcome<ArgError>
  {
    if !v.Str? then Fail(NotString(param))
    else if Trim(v.s) == [] then Fail(Empty(param))
    else Pass
  }

  /** An integer that is at least zero: `is_integer` first, then `$v < 0`. */
  function CheckCount(v: Value, param: string): Outcome<ArgError>
  {
    if !v.Int? then Fail(NotInteger(param))
    else if v.i < 0 then Fail(Negative(param))
    else Pass
  }

  /** An integer that is greater than zero: `is_integer` first, then `$v <= 0`. */
  function CheckPositive(v: Value, param: string): Outcome<ArgError>
  {
    if !v.Int? then Fail(NotInteger(param))
    else if v.i <= 0 then Fail(NotPositive(param))
    else Pass
  }

  /**
   * What an `if/else if` chain of argument checks raises: the error of the
   * first check that fails, each check taken in the order of the chain.
   */
  function FirstFailure(checks: seq<Outcome<ArgError>>): (r: Outcome<ArgError>)
    ensures r.Pass? <==> forall i :: 0 <= i < |checks| ==> checks[i].Pass?
    ensures r.Fail? ==>
      exists i :: 0 <= i < |checks| && checks[i] == r && forall j :: 0 <= j < i ==> checks[j].Pass?
  {
    if checks == [] then Pass
    else if checks[0].Fail? then checks[0]
    else
      var r := FirstFailure(checks[1..]);
      assert forall i :: 1 <= i < |checks| ==> checks[i] == checks[1..][i - 1];
      r
  }

  /** A chain fails at its head, or else as its tail does. */
  lemma FirstFailureCons(c: Outcome<ArgError>, rest: seq<Outcome<ArgError>>)
    ensures FirstFailure([c] + rest) == if c.Fail? then c else FirstFailure(rest)
  {
    assert ([c] + rest)[1..] == rest;
  }

  /** A chain of seven checks, unfolded. */
  lemma FirstFailureOfSeven(a: Outcome<ArgError>, b: Outcome<ArgError>, c: Outcome<ArgError>, d: Outcome<ArgError>,
                            e: Outcome<ArgError>, f: Outcome<ArgError>, g: Outcome<ArgError>)
    ensures FirstFailure([a, b, c, d, e, f, g])
         == if a.Fail? then a else if b.Fail? then b else if c.Fail? then c else if d.Fail? then d
            else if e.Fail? then e else if f.Fail? then f else g
  {
    assert [a, b, c, d, e, f, g] == [a] + ([b] + ([c] + ([d] + ([e] + ([f] + [g])))));
    FirstFailureCons(a, [b, c, d, e, f, g]);
    FirstFailureCons(b, [c, d, e, f, g]);
    FirstFailureCons(c, [d, e, f, g]);
    FirstFailureCons(d, [e, f, g]);
    FirstFailureCons(e, [f, g]);
    FirstFailureCons(f, [g]);
    FirstFailureCons(g, []);
  }
}

=== FILE: client.dfy ===
/**
 * The WebUI client object and the remote API it talks to. `makeCallToAPI`
 * and its schema validator belong to the parent class and are not part of
 * this model: `Api` stands for them, answering the n-th call with a fixed
 * but arbitrary `respond(n, call)` and recording every call in `log`.
 */
module Client {
  import opened Wrappers
  import opened PhpValues
  import opened Arguments
  import opened Passwords
  import opened Responses

  /**
   * One call of `makeCallToAPI`: the method name, the boolean the client
   * passes second (its meaning belongs to the parent class), and the input
   * array; a null input is `Null`.
   */
  datatype Call = Call(name: string, flag: bool, input: Value)

  /** What `makeCallToAPI` gives back: the validated answer object, or the exception it raised. */
  datatype Answer = Answered(fields: seq<(string, Value)>) | Failed(reason: string)

  /** Why a client method ended without a result. */
  datatype CallError = Rejected(arg: ArgError) | ApiFailed(reason: string) | Raised(kind: ExceptionKind)

  class Api {
    var log: seq<Call>
    const respond: (nat, Call) -> Answer

    constructor (respond: (nat, Call) -> Answer)
      ensures this.respond == respond && log == []
    {
      this.respond := respond;
      log := [];
    }

    method MakeCall(c: Call) returns (a: Answer)
      modifies this
      ensures log == old(log) + [c]
      ensures a == respond(|old(log)|, c)
    {
      a := respond(|log|, c);
      log := log + [c];
    }
  }

  /** What `get_grid_info($info)` returns: one entry, or the whole table. */
  datatype GridInfoView = Entry(value: Option<Value>) | Whole(table: map<string, Value>)

  /** The property list of the `GridInfo` object of an answer; anything else iterates as nothing. */
  function GridInfoFields(fields: seq<(string, Value)>): seq<(string, Value)>
  {
    var p := Property(fields, "GridInfo");
    if p.Some? && p.value.Record? then p.value.fields else []
  }

  /**
   * The view `get_grid_info` returns from a filled table: the entry named by
   * `info` when it is a string for which `ctype_graph` holds, else the table.
   */
  function ViewOf(table: map<string, Value>, info: Value): (r: GridInfoView)
    ensures r.Entry? <==> info.Str? && IsGraph(info.s)
    ensures r.Entry? ==> (r.value.Some? <==> info.s in table) && (r.value.Some? ==> r.value.value == table[info.s])
    ensures r.Whole? ==> r.table == table
  {
    if IsSet(info) && info.Str? && IsGraph(info.s) then
      Entry(if info.s in table then Some(table[info.s]) else None)
    else Whole(table)
  }

  /**
   * The entry `get_grid_info` returns for a key is the property of that name
   * in the answer of the one call that filled the table.
   */
  lemma GridInfoEntryIsProperty(fields: seq<(string, Value)>, key: string)
    requires IsGraph(key)
    ensures ViewOf(FieldMap(GridInfoFields(fields)), Str(key)) == Entry(Property(GridInfoFields(fields), key))
  {
    FieldMapAgrees(GridInfoFields(fields), key);
  }

  class WebUI {
    const api: Api
    var gridInfo: Option<map<string, Value>>

    constructor (api: Api)
      ensures this.api == api && gridInfo.None?
    {
      this.api := api;
      gridInfo := None;
    }

    /**
     * `get_grid_info($info)`: on the first successful call the table is
     * fetched and copied property by property; afterwards it is reused and the
     * API is not called again. A failed call leaves the table unset.
     */
    method GetGridInfo(info: Value) returns (r: Result<GridInfoView, CallError>)
      modifies this, api
      ensures old(gridInfo).Some? ==> gridInfo == old(gridInfo) && api.log == old(api.log)
      ensures old(gridInfo).None? ==> api.log == old(api.log) + [Call("get_grid_info", true, Null)]
      ensures old(gridInfo).None? ==>
        var a := api.respond(|old(api.log)|, Call("get_grid_info", true, Null));
        gridInfo == if a.Answered? then Some(FieldMap(GridInfoFields(a.fields))) else None
      ensures old(gridInfo).None? ==>
        var a := api.respond(|old(api.log)|, Call("get_grid_info", true, Null));
        a.Failed? ==> r == Failure(ApiFailed(a.reason))
      ensures r.Success? <==> gridInfo.Some?
      ensures r.Success? ==> r.value == ViewOf(gridInfo.value, info)
    {
      if gridInfo.None? {
        var a := api.MakeCall(Call("get_grid_info", true, Null));
        if a.Failed? {
          return Failure(ApiFailed(a.reason));
        }
        var fields := GridInfoFields(a.fields);
        gridInfo := Some(map[]);
        var k := 0;
        while k < |fields|
          invariant 0 <= k <= |fields|
          invariant gridInfo == Some(FieldMap(fields[..k]))
          modifies this
        {
          assert fields[..k + 1][..k] == fields[..k];
          gridInfo := Some(gridInfo.value[fields[k].0 := fields[k].1]);
          k := k + 1;
        }
        assert fields[..k] == fields;
      }
      return Success(ViewOf(gridInfo.value, info));
    }

    /**
     * `ChangePassword`: nothing is sent when an argument is refused; otherwise
     * one call carries the request map and the answer's `Verified` is returned.
     */
    method ChangePassword(uuid: Value, oldPassword: Value, newPassword: Value, md5: string -> string)
      returns (r: Result<Value, CallError>)
      modifies api
      ensures var q := ChangePasswordRequest(uuid, oldPassword, newPassword, md5);
        && (q.Failure? ==> api.log == old(api.log) && r == Failure(Rejected(q.error)))
        && (q.Success? ==>
              var a := api.respond(|old(api.log)|, Call("ChangePassword", false, Dict(q.value)));
              && api.log == old(api.log) + [Call("ChangePassword", false, Dict(q.value))]
              && r == if a.Failed? then Failure(ApiFailed(a.reason))
                      else Success(OrNull(Property(a.fields, "Verified"))))
    {
      var q := ChangePasswordRequest(uuid, oldPassword, newPassword, md5);
      if q.Failure? {
        return Failure(Rejected(q.error));
      }
      var a := api.MakeCall(Call("ChangePassword", false, Dict(q.value)));
      if a.Failed? {
        return Failure(ApiFailed(a.reason));
      }
      return Success(OrNull(Property(a.fields, "Verified")));
    }

    /**
     * `GetAvatarArchives`: one call, then the names and the snapshots the
     * answer lists are paired up, or a LengthException if their counts differ.
     */
    method GetAvatarArchives() returns (r: Result<seq<Archive>, CallError>)
      modifies api
      ensures api.log == old(api.log) + [Call("GetAvatarArchives", false, Null)]
      ensures var a := api.respond(|old(api.log)|, Call("GetAvatarArchives", false, Null));
        r.Success? <==>
          && a.Answered?
          && OrNull(Property(a.fields, "names")).List? && OrNull(Property(a.fields, "snapshot")).List?
          && |OrNull(Property(a.fields, "names")).items| == |OrNull(Property(a.fields, "snapshot")).items|
      ensures var a := api.respond(|old(api.log)|, Call("GetAvatarArchives", false, Null));
        && (a.Failed? ==> r == Failure(ApiFailed(a.reason)))
        && (a.Answered? && OrNull(Property(a.fields, "names")).List? && OrNull(Property(a.fields, "snapshot")).List?
            && |OrNull(Property(a.fields, "names")).items| != |OrNull(Property(a.fields, "snapshot")).items|
            ==> r == Failure(Raised(Length)))
      ensures var a := api.respond(|old(api.log)|, Call("GetAvatarArchives", false, Null));
        r.Success? ==>
          var names, snapshots := Property(a.fields, "names").value.items, Property(a.fields, "snapshot").value.items;
          |names| == |snapshots| && r.value == Zip(names, snapshots)
    {
      var a := api.MakeCall(Call("GetAvatarArchives", false, Null));
      if a.Failed? {
        return Failure(ApiFailed(a.reason));
      }
      var names, snapshots := OrNull(Property(a.fields, "names")), OrNull(Property(a.fields, "snapshot"));
      if !names.List? || !snapshots.List? {
        return Failure(ApiFailed("schema"));
      }
      var zipped := ZipArchives(names.items, snapshots.items);
      if zipped.Failure? {
        return Failure(Raised(zipped.error));
      }
      return Success(zipped.value);
    }
  }

  /** Reading a property that is not there gives null. */
  function OrNull(p: Option<Value>): Value
  {
    if p.Some? then p.value else Null
  }
}

=== FILE: passwords.dfy ===
/**
 * How the WebUI client turns a password into the field it sends: always
 * "$1$" followed by an MD5 digest, except that ChangePassword and
 * ForgotPassword forward a value that already starts with "$1$" as it is.
 * `md5` is a library call and is passed in as an uninterpreted function.
 */
module Passwords {
  import opened Wrappers
  import opened PhpValues
  import opened Uuid
  import opened Arguments

  const CryptPrefix: string := "$1$"

  /** `substr($p, 0, 3) === '$1$'`. */
  predicate HasCryptPrefix(p: string)
  {
    |p| >= 3 && p[..3] == CryptPrefix
  }

  /** `'$1$' . md5($p)`, as CreateAccount, ActivateAccount and doLogin send it. */
  function HashPassword(p: string, md5: string -> string): string
  {
    CryptPrefix + md5(p)
  }

  /** `'$1$' . (substr($p, 0, 3) === '$1$' ? substr($p, 3) : md5($p))`. */
  function PasswordField(p: string, md5: string -> string): (r: string)
    ensures HasCryptPrefix(r)
    ensures HasCryptPrefix(p) ==> r == p
    ensures !HasCryptPrefix(p) ==> r == HashPassword(p, md5)
  {
    CryptPrefix + (if HasCryptPrefix(p) then p[3..] else md5(p))
  }

  /** Applying the rule to its own output changes nothing. */
  lemma PasswordFieldIdempotent(p: string, md5: string -> string)
    ensures PasswordField(PasswordField(p, md5), md5) == PasswordField(p, md5)
  {
  }

  /**
   * The hash the login and account methods send for a password is forwarded
   * unchanged by ChangePassword and ForgotPassword, and a plain password is
   * sent by them exactly as the login would send it: a client may pass either.
   */
  lemma LoginHashForwarded(p: string, md5: string -> string)
    ensures PasswordField(HashPassword(p, md5), md5) == HashPassword(p, md5)
    ensures !HasCryptPrefix(p) ==> PasswordField(p, md5) == HashPassword(p, md5)
    ensures HashPassword(p, md5)[3..] == md5(p)
  {
  }

  /**
   * The checks on a new password: a string, not blank once trimmed, and at
   * least 8 characters long before trimming.
   */
  function CheckNewPassword(v: Value): (r: Outcome<ArgError>)
    ensures r.Pass? <==> v.Str? && Trim(v.s) != [] && |v.s| >= 8
    ensures r == Fail(NotString("NewPassword")) <==> !v.Str?
    ensures r == Fail(Empty("NewPassword")) <==> v.Str? && Trim(v.s) == []
    ensures r == Fail(TooShort("NewPassword")) <==> v.Str? && Trim(v.s) != [] && |v.s| < 8
    ensures r.Fail? && r.error.Kind() == Length <==> v.Str? && Trim(v.s) != [] && |v.s| < 8
  {
    if !v.Str? then Fail(NotString("NewPassword"))
    else if Trim(v.s) == [] then Fail(Empty("NewPassword"))
    else if |v.s| < 8 then Fail(TooShort("NewPassword"))
    else Pass
  }

  /** A whitespace-only password is refused as empty even when it is 8 characters long. */
  lemma BlankPasswordIsEmpty(p: string)
    requires forall k :: 0 <= k < |p| ==> IsTrimChar(p[k])
    ensures CheckNewPassword(Str(p)) == Fail(Empty("NewPassword"))
  {
    TrimBlank(p);
  }

  /** The argument checks and request map of ChangePassword. */
  function ChangePasswordRequest(uuid: Value, oldPassword: Value, newPassword: Value, md5: string -> string)
    : (r: Result<map<string, Value>, ArgError>)
    ensures r.Success? <==>
      && CheckUuid(Unwrap(uuid, ServicesUser), "UUID").Pass?
      && oldPassword.Str?
      && CheckNewPassword(newPassword).Pass?
    ensures OutcomeOf(r) == FirstFailure([CheckUuid(Unwrap(uuid, ServicesUser), "UUID"),
                                          CheckString(oldPassword, "OldPassword"), CheckNewPassword(newPassword)])
    ensures r.Success? ==>
      r.value == map["UUID" := Unwrap(uuid, ServicesUser),
                     "Password" := Str(PasswordField(oldPassword.s, md5)),
                     "NewPassword" := Str(PasswordField(newPassword.s, md5))]
  {
    var id := Unwrap(uuid, ServicesUser);
    var idCheck := CheckUuid(id, "UUID");
    FirstFailureCons(idCheck, [CheckString(oldPassword, "OldPassword"), CheckNewPassword(newPassword)]);
    FirstFailureCons(CheckString(oldPassword, "OldPassword"), [CheckNewPassword(newPassword)]);
    FirstFailureCons(CheckNewPassword(newPassword), []);
    if idCheck.Fail? then Failure(idCheck.error)
    else if !oldPassword.Str? then Failure(NotString("OldPassword"))
    else
      var newCheck := CheckNewPassword(newPassword);
      if newCheck.Fail? then Failure(newCheck.error)
      else
        Success(map["UUID" := id,
                    "Password" := Str(PasswordField(oldPassword.s, md5)),
                    "NewPassword" := Str(PasswordField(newPassword.s, md5))])
  }

  /** The argument checks and request map of ForgotPassword. */
  function ForgotPasswordRequest(uuid: Value, newPassword: Value, md5: string -> string)
    : (r: Result<map<string, Value>, ArgError>)
    ensures r.Success? <==>
      CheckUuid(Unwrap(uuid, ServicesUser), "UUID").Pass? && CheckNewPassword(newPassword).Pass?
    ensures OutcomeOf(r) == FirstFailure([CheckUuid(Unwrap(uuid, ServicesUser), "UUID"), CheckNewPassword(newPassword)])
    ensures r.Success? ==>
      r.value == map["UUID" := Unwrap(uuid, ServicesUser), "Password" := Str(PasswordField(newPassword.s, md5))]
  {
    var id := Unwrap(uuid, ServicesUser);
    var idCheck := CheckUuid(id, "UUID");
    FirstFailureCons(idCheck, [CheckNewPassword(newPassword)]);
    FirstFailureCons(CheckNewPassword(newPassword), []);
    if idCheck.Fail? then Failure(idCheck.error)
    else
      var newCheck := CheckNewPassword(newPassword);
      if newCheck.Fail? then Failure(newCheck.error)
      else
        Success(map["UUID" := id, "Password" := Str(PasswordField(newPassword.s, md5))])
  }

  /**
   * A new password that already starts with "$1$" is sent verbatim as the
   * hash: the 8-character minimum then only asks for 5 characters after the prefix.
   */
  lemma PrehashedPasswordForwarded(uuid: string, oldPassword: string, newPassword: string, md5: string -> string)
    requires MatchesUuidPattern(uuid)
    requires HasCryptPrefix(newPassword) && |newPassword| >= 8
    ensures ChangePasswordRequest(Str(uuid), Str(oldPassword), Str(newPassword), md5).Success?
    ensures ChangePasswordRequest(Str(uuid), Str(oldPassword), Str(newPassword), md5).value["NewPassword"]
            == Str(newPassword)
  {
    assert newPassword[0] == '$' && !IsTrimChar(newPassword[0]);
    TrimBlank(newPassword);
  }
}

=== FILE: php_values.dfy ===
/**
 * PHP's dynamically typed values as the WebUI client meets them, and the
 * built-in conversions the client applies to its arguments before each remote
 * call: `isset`, `ctype_digit` followed by an `(integer)` cast, `trim`,
 * `ctype_graph`, and property access on a decoded response object.
 */
module PhpValues {
  import opened Wrappers

  /** The classes whose instances the client tests with `instanceof`. */
  datatype Class =
    | WebUIClient      // Aurora\Addon\WebUI
    | ServicesUser     // Aurora\Services\Interfaces\User
    | AbstractUser     // Aurora\Addon\WebUI\abstractUser
    | GroupNoticeData  // Aurora\Addon\WebUI\GroupNoticeData
    | OtherClass

  /** A PHP value. */
  datatype Value =
    | Null
    | Bool(b: bool)
    | Int(i: int)
    | Float(x: real)
    | Str(s: string)
    | List(items: seq<Value>)                // a decoded JSON array
    | Record(fields: seq<(string, Value)>)   // a decoded JSON object, properties in order
    | Dict(entries: map<string, Value>)      // an associative array the client builds
    | Instance(cls: Class, ident: string)    // an object; `ident` is the id its accessor
                                             // (PrincipalID(), NoticeID(), ...) answers

  /** A key of a PHP array, as `ArrayAccess::offsetSet` receives it (`$a[] = ...` passes null). */
  datatype Key = NullKey | IntKey(n: int) | StrKey(s: string)

  /** The SPL exception classes the client throws (each wrapped in a WebUI subclass). */
  datatype ExceptionKind = InvalidArgument | Length | UnexpectedValue | BadMethodCall

  /** The largest PHP integer on a 64-bit build. */
  const PhpIntMax: int := 0x7FFF_FFFF_FFFF_FFFF

  /** `isset($v)`: every value except null is set. */
  predicate IsSet(v: Value) { !v.Null? }

  /** `$v instanceof C`. */
  predicate IsInstanceOf(v: Value, c: Class) { v.Instance? && v.cls == c }

  predicate IsDigit(c: char) { '0' <= c <= '9' }

  predicate AllDigits(s: string) { forall k :: 0 <= k < |s| ==> IsDigit(s[k]) }

  /** `ctype_digit($s)` on a string: non-empty and made of decimal digits only. */
  predicate IsDigitString(s: string) { |s| > 0 && AllDigits(s) }

  /** The number a string of decimal digits denotes (leading zeros allowed). */
  function DecimalValue(s: string): nat
    requires AllDigits(s)
  {
    if s == [] then 0 else 10 * DecimalValue(s[..|s| - 1]) + (s[|s| - 1] as int - '0' as int)
  }

  function DigitChar(d: nat): char
    requires d < 10
  {
    ('0' as int + d) as char
  }

  /** PHP's rendering of a non-negative integer as a string. */
  function Decimal(n: nat): (r: string)
    ensures IsDigitString(r)
    ensures r[0] == '0' ==> n == 0
  {
    if n < 10 then [DigitChar(n)] else Decimal(n / 10) + [DigitChar(n % 10)]
  }

  /** PHP's rendering of any integer as a string (what an integer array key reads as). */
  function IntText(n: int): (r: string)
    ensures |r| > 0 && (r[0] == '-' || IsDigit(r[0]))
  {
    if n < 0 then "-" + Decimal(-n) else Decimal(n)
  }

  /** Reading back a rendered integer gives the integer. */
  lemma {:induction false} DecimalRoundTrip(n: nat)
    ensures DecimalValue(Decimal(n)) == n
  {
    if n >= 10 {
      DecimalRoundTrip(n / 10);
      var s := Decimal(n);
      assert s[..|s| - 1] == Decimal(n / 10);
    }
  }

  /** Leading zeros do not change the value a digit string denotes. */
  lemma {:induction false} LeadingZeroIgnored(s: string)
    requires AllDigits(s)
    ensures AllDigits("0" + s) && DecimalValue("0" + s) == DecimalValue(s)
  {
    if s != [] {
      var t := "0" + s;
      assert t[..|t| - 1] == "0" + s[..|s| - 1];
      LeadingZeroIgnored(s[..|s| - 1]);
    }
  }

  /** `(integer)$s` for a digit string: its value, saturated at PHP_INT_MAX as PHP does. */
  function IntegerCast(s: string): int
    requires AllDigits(s)
  {
    if DecimalValue(s) > PhpIntMax then PhpIntMax else DecimalValue(s)
  }

  /** The normalisation `if(is_string($v) && ctype_digit($v)) $v = (integer)$v;`. */
  function CoerceDigits(v: Value): (r: Value)
    ensures r.Int? <==> v.Int? || (v.Str? && IsDigitString(v.s))
    ensures !(v.Str? && IsDigitString(v.s)) ==> r == v
    ensures v.Str? && IsDigitString(v.s) ==> 0 <= r.i <= PhpIntMax
  {
    if v.Str? && IsDigitString(v.s) then Int(IntegerCast(v.s)) else v
  }

  /** `(integer)"007"` is 7: a zero-padded digit string coerces to the same integer. */
  lemma CoerceIgnoresLeadingZero(s: string)
    requires IsDigitString(s)
    ensures IsDigitString("0" + s) && CoerceDigits(Str("0" + s)) == CoerceDigits(Str(s))
  {
    LeadingZeroIgnored(s);
  }

  /** A digit string beyond PHP_INT_MAX coerces to PHP_INT_MAX: the cast saturates. */
  lemma CoerceSaturates(s: string)
    requires IsDigitString(s) && DecimalValue(s) > PhpIntMax
    ensures CoerceDigits(Str(s)) == Int(PhpIntMax)
  {
  }

  /** The rendering of any natural number beyond PHP_INT_MAX coerces to PHP_INT_MAX. */
  lemma CoerceRenderedSaturates(n: nat)
    requires n > PhpIntMax
    ensures CoerceDigits(Str(Decimal(n))) == Int(PhpIntMax)
  {
    DecimalRoundTrip(n);
    CoerceSaturates(Decimal(n));
  }

  /** A digit string whose value is in range coerces to that value. */
  lemma CoerceDigitString(s: string)
    requires IsDigitString(s) && DecimalValue(s) <= PhpIntMax
    ensures CoerceDigits(Str(s)) == Int(DecimalValue(s))
  {
  }

  /** Coercing the rendering of an integer in range gives that integer back. */
  lemma CoerceRendered(n: nat)
    requires n <= PhpIntMax
    ensures CoerceDigits(Str(Decimal(n))) == Int(n)
  {
    DecimalRoundTrip(n);
    CoerceDigitString(Decimal(n));
  }

  /** The characters `trim` strips by default: space, tab, LF, CR, NUL and vertical tab. */
  predicate IsTrimChar(c: char)
  {
    c == ' ' || c == '\t' || c == '\n' || c == '\r' || c == '\0' || c == '\U{000B}'
  }

  function TrimLeft(s: string): (r: string)
    ensures |r| <= |s| && r == s[|s| - |r|..]
    ensures r == [] || !IsTrimChar(r[0])
    ensures forall k :: 0 <= k < |s| - |r| ==> IsTrimChar(s[k])
  {
    if s != [] && IsTrimChar(s[0]) then
      var r := TrimLeft(s[1..]);
      assert s[1..][|s| - 1 - |r|..] == s[|s| - |r|..];
      assert forall k :: 1 <= k < |s| - |r| ==> s[k] == s[1..][k - 1];
      r
    else s
  }

  function TrimRight(s: string): (r: string)
    ensures |r| <= |s| && r == s[..|r|]
    ensures r == [] || !IsTrimChar(r[|r| - 1])
    ensures forall k :: |r| <= k < |s| ==> IsTrimChar(s[k])
  {
    if s != [] && IsTrimChar(s[|s| - 1]) then
      var r := TrimRight(s[..|s| - 1]);
      assert s[..|s| - 1][..|r|] == s[..|r|];
      assert forall k :: |r| <= k < |s| - 1 ==> s[k] == s[..|s| - 1][k];
      r
    else s
  }

  /** `trim($s)`: `s` without its leading and trailing whitespace. */
  function Trim(s: string): (r: string)
    ensures r == [] || (!IsTrimChar(r[0]) && !IsTrimChar(r[|r| - 1]))
    ensures var i := |s| - |TrimLeft(s)|; i + |r| <= |s| && r == s[i..i + |r|]
  {
    TrimRight(TrimLeft(s))
  }

  /**
   * `trim` removes whitespace only: everything before the slice it keeps, and
   * everything after it, is whitespace.
   */
  lemma TrimRemovesOnlyWhitespace(s: string)
    ensures var i := |s| - |TrimLeft(s)|;
      && (forall k :: 0 <= k < i ==> IsTrimChar(s[k]))
      && (forall k :: i + |Trim(s)| <= k < |s| ==> IsTrimChar(s[k]))
  {
    TrimRightInside(s, TrimLeft(s), Trim(s));
  }

  /** What the right trim removes from the left-trimmed suffix is whitespace of the original. */
  lemma TrimRightInside(s: string, t: string, r: string)
    requires |t| <= |s| && t == s[|s| - |t|..]
    requires |r| <= |t| && r == t[..|r|]
    requires forall k :: |r| <= k < |t| ==> IsTrimChar(t[k])
    ensures forall k :: |s| - |t| + |r| <= k < |s| ==> IsTrimChar(s[k])
  {
    var i := |s| - |t|;
    forall k | i + |r| <= k < |s|
      ensures IsTrimChar(s[k])
    {
      assert s[k] == t[k - i];
    }
  }

  /** A string without surrounding whitespace is left as it is. */
  lemma TrimKeepsClean(s: string)
    requires s == [] || (!IsTrimChar(s[0]) && !IsTrimChar(s[|s| - 1]))
    ensures Trim(s) == s
  {
  }

  /** A leading whitespace character makes no difference to the trimmed result. */
  lemma TrimDropsLeading(c: char, s: string)
    requires IsTrimChar(c)
    ensures Trim([c] + s) == Trim(s)
  {
    assert ([c] + s)[1..] == s;
  }

  lemma TrimIdempotent(s: string)
    ensures Trim(Trim(s)) == Trim(s)
  {
    TrimKeepsClean(Trim(s));
  }

  /** `trim($s) === ''` holds exactly for strings made of whitespace only. */
  lemma TrimBlank(s: string)
    ensures Trim(s) == [] <==> forall k :: 0 <= k < |s| ==> IsTrimChar(s[k])
  {
  }

  /** `ctype_graph($s)`: non-empty and made of visible ASCII characters only. */
  predicate IsGraph(s: string)
  {
    |s| > 0 && forall k :: 0 <= k < |s| ==> '!' <= s[k] <= '~'
  }

  /** `$object->name` on a decoded object: the value of the property, the last one if repeated. */
  function Property(fields: seq<(string, Value)>, name: string): (r: Option<Value>)
    ensures r.None? <==> forall k :: 0 <= k < |fields| ==> fields[k].0 != name
    ensures r.Some? ==> exists k :: 0 <= k < |fields| && fields[k] == (name, r.value)
  {
    if fields == [] then None
    else if fields[|fields| - 1].0 == name then Some(fields[|fields| - 1].1)
    else Property(fields[..|fields| - 1], name)
  }

  /** The map obtained by assigning each property in order, as a `foreach` copy does. */
  function FieldMap(fields: seq<(string, Value)>): map<string, Value>
  {
    if fields == [] then map[]
    else FieldMap(fields[..|fields| - 1])[fields[|fields| - 1].0 := fields[|fields| - 1].1]
  }

  /** Copying the properties into a map keeps exactly the names and the values property access reads. */
  lemma {:induction false} FieldMapAgrees(fields: seq<(string, Value)>, name: string)
    ensures name in FieldMap(fields) <==> Property(fields, name).Some?
    ensures name in FieldMap(fields) ==> FieldMap(fields)[name] == Property(fields, name).value
  {
    if fields != [] {
      FieldMapAgrees(fields[..|fields| - 1], name);
    }
  }
}

=== FILE: region_requests.dfy ===
/**
 * The argument checks and request maps of GetRegions and GetRegionsInEstate.
 * Both run one `if/else if` chain; because the count check is an
 * `else if(isset($count))` with its own nested block, the three sort-flag
 * checks that follow it are only reached when the count is null.
 */
module RegionRequests {
  import opened Wrappers
  import opened PhpValues
  import opened Arguments

  /**
   * What the client uses of Aurora\Framework\RegionFlags, which is not part of
   * this model: the RegionOnline constant and the isValid check on integers.
   */
  datatype RegionFlags = RegionFlags(regionOnline: int, isValid: int -> bool)

  /** `RegionFlags::isValid($v)`, which refuses every non-integer. */
  predicate FlagsValid(rf: RegionFlags, v: Value)
  {
    v.Int? && rf.isValid(v.i)
  }

  /**
   * PHP's loose `$v < 0`. A string that is not a digit string compares with
   * "0" as a string, so it is below zero when empty or when it starts with a
   * character before '0'.
   */
  predicate BelowZero(v: Value)
  {
    match v
    case Int(i) => i < 0
    case Float(x) => x < 0.0
    case Str(s) => s == [] || s[0] < '0'
    case _ => false
  }

  /**
   * The end of both chains: `else if(isset($count)) { integer? >= 1? }` and
   * then the three `else if` checks of the sort flags.
   */
  function CheckCountThenSorts(count: Value, sortRegionName: Value, sortLocX: Value, sortLocY: Value)
    : Outcome<ArgError>
  {
    if IsSet(count) then
      if !count.Int? then Fail(NotInteger("Count"))
      else if count.i < 1 then Fail(NotPositive("Count"))
      else Pass
    else if IsSet(sortRegionName) && !sortRegionName.Bool? then Fail(NotBoolean("SortRegionName"))
    else if IsSet(sortLocX) && !sortLocX.Bool? then Fail(NotBoolean("SortLocX"))
    else if IsSet(sortLocY) && !sortLocY.Bool? then Fail(NotBoolean("SortLocY"))
    else Pass
  }

  /** A set count that is a positive integer lets any sort flags through. */
  lemma CountShadowsSortChecks(count: Value, sortRegionName: Value, sortLocX: Value, sortLocY: Value)
    ensures IsSet(count) ==>
      (CheckCountThenSorts(count, sortRegionName, sortLocX, sortLocY).Pass? <==> count.Int? && count.i >= 1)
    ensures !IsSet(count) ==>
      (CheckCountThenSorts(count, sortRegionName, sortLocX, sortLocY).Pass? <==>
        forall f :: f in [sortRegionName, sortLocX, sortLocY] ==> !IsSet(f) || f.Bool?)
  {
    if !IsSet(count) {
      assert [sortRegionName, sortLocX, sortLocY][0] == sortRegionName;
      assert [sortRegionName, sortLocX, sortLocY][1] == sortLocX;
      assert [sortRegionName, sortLocX, sortLocY][2] == sortLocY;
    }
  }

  /** `$input[key] = $v` only when `isset($v)`. */
  function AddIfSet(m: map<string, Value>, key: string, v: Value): map<string, Value>
  {
    if IsSet(v) then m[key := v] else m
  }

  /** The errors GetRegions raises, in the order of its chain, on the defaulted and coerced arguments. */
  function GetRegionsError(rf: RegionFlags, flags: Value, excludeFlags: Value, start: Value, count: Value,
                           sortRegionName: Value, sortLocX: Value, sortLocY: Value, asArray: Value)
    : Outcome<ArgError>
  {
    if !asArray.Bool? then Fail(NotBoolean("asArray"))
    else if !flags.Int? then Fail(NotInteger("RegionFlags"))
    else if flags.i < 0 then Fail(Negative("RegionFlags"))
    else if !rf.isValid(flags.i) then Fail(InvalidFlags("RegionFlags"))
    else if BelowZero(excludeFlags) then Fail(Negative("ExcludeRegionFlags"))
    else if !FlagsValid(rf, excludeFlags) then Fail(InvalidFlags("ExcludeRegionFlags"))
    else if !start.Int? then Fail(NotInteger("Start"))
    else CheckCountThenSorts(count, sortRegionName, sortLocX, sortLocY)
  }

  /**
   * GetRegions up to the remote call: null flags default to RegionOnline and
   * null exclude flags to 0, digit strings become integers, and then the chain
   * runs and the request map is built.
   */
  function GetRegionsRequest(rf: RegionFlags, flags: Value, excludeFlags: Value, start: Value, count: Value,
                             sortRegionName: Value, sortLocX: Value, sortLocY: Value, asArray: Value)
    : (r: Result<map<string, Value>, ArgError>)
    ensures r.Success? ==>
      && {"RegionFlags", "ExcludeRegionFlags", "Start", "Count"} <= r.value.Keys
      && ("SortRegionName" in r.value <==> IsSet(sortRegionName))
      && ("SortLocX" in r.value <==> IsSet(sortLocX))
      && ("SortLocY" in r.value <==> IsSet(sortLocY))
      && r.value["RegionFlags"] == (if IsSet(flags) then CoerceDigits(flags) else Int(rf.regionOnline))
      && r.value["ExcludeRegionFlags"] == (if IsSet(excludeFlags) then CoerceDigits(excludeFlags) else Int(0))
      && r.value["Start"] == CoerceDigits(start) && r.value["Count"] == CoerceDigits(count)
      && (IsSet(sortRegionName) ==> r.value["SortRegionName"] == sortRegionName)
      && (IsSet(sortLocX) ==> r.value["SortLocX"] == sortLocX)
      && (IsSet(sortLocY) ==> r.value["SortLocY"] == sortLocY)
  {
    BuildGetRegions(rf, CoerceDigits(if IsSet(flags) then flags else Int(rf.regionOnline)),
                    CoerceDigits(if IsSet(excludeFlags) then excludeFlags else Int(0)),
                    CoerceDigits(start), CoerceDigits(count), sortRegionName, sortLocX, sortLocY, asArray)
  }

  /**
   * The chain and the request map of GetRegions, on arguments already
   * defaulted and coerced: the map always holds the flags, the start and the
   * count, and each sort key, with the caller's flag as its value, exactly
   * when that flag is set.
   */
  function BuildGetRegions(rf: RegionFlags, f: Value, x: Value, s: Value, c: Value,
                           sortRegionName: Value, sortLocX: Value, sortLocY: Value, asArray: Value)
    : (r: Result<map<string, Value>, ArgError>)
    ensures r.Success? <==> GetRegionsError(rf, f, x, s, c, sortRegionName, sortLocX, sortLocY, asArray).Pass?
    ensures r.Failure? ==> r.error == GetRegionsError(rf, f, x, s, c, sortRegionName, sortLocX, sortLocY, asArray).error
    ensures r.Success? ==>
      && {"RegionFlags", "ExcludeRegionFlags", "Start", "Count"} <= r.value.Keys
      && r.value["RegionFlags"] == f && f.Int? && f.i >= 0 && rf.isValid(f.i)
      && r.value["ExcludeRegionFlags"] == x && FlagsValid(rf, x)
      && r.value["Start"] == s && s.Int?
      && r.value["Count"] == c && (c.Null? || (c.Int? && c.i >= 1))
      && ("SortRegionName" in r.value <==> IsSet(sortRegionName))
      && ("SortLocX" in r.value <==> IsSet(sortLocX))
      && ("SortLocY" in r.value <==> IsSet(sortLocY))
      && (IsSet(sortRegionName) ==> r.value["SortRegionName"] == sortRegionName)
      && (IsSet(sortLocX) ==> r.value["SortLocX"] == sortLocX)
      && (IsSet(sortLocY) ==> r.value["SortLocY"] == sortLocY)
      && r.value.Keys <= {"RegionFlags", "ExcludeRegionFlags", "Start", "Count",
                          "SortRegionName", "SortLocX", "SortLocY"}
  {
    var err := GetRegionsError(rf, f, x, s, c, sortRegionName, sortLocX, sortLocY, asArray);
    if err.Fail? then Failure(err.error)
    else
      var input := map["RegionFlags" := f, "ExcludeRegionFlags" := x, "Start" := s, "Count" := c];
      var withName := AddIfSet(input, "SortRegionName", sortRegionName);
      var withX := AddIfSet(withName, "SortLocX", sortLocX);
      Success(AddIfSet(withX, "SortLocY", sortLocY))
  }

  /**
   * With a positive count, a sort flag of any type (here a string) passes the
   * chain unchecked and is forwarded as it is.
   */
  lemma SortFlagUncheckedWithCount(rf: RegionFlags, start: int, count: int, sortLocX: Value)
    requires rf.isValid(rf.regionOnline) && rf.regionOnline >= 0 && rf.isValid(0)
    requires count >= 1 && IsSet(sortLocX)
    ensures var r := GetRegionsRequest(rf, Null, Null, Int(start), Int(count), Null, sortLocX, Null, Bool(false));
      r.Success? && r.value["SortLocX"] == sortLocX
  {
  }

  /** With a null count the same flag is checked and refused. */
  lemma SortFlagCheckedWithoutCount(rf: RegionFlags, start: int, sortLocX: string)
    requires rf.isValid(rf.regionOnline) && rf.regionOnline >= 0 && rf.isValid(0)
    ensures GetRegionsRequest(rf, Null, Null, Int(start), Null, Null, Str(sortLocX), Null, Bool(false))
            == Failure(NotBoolean("SortLocX"))
  {
  }

  /** GetRegions depends on its set numeric arguments only through their coerced values. */
  lemma GetRegionsSeesCoercedValues(rf: RegionFlags, flags: Value, excludeFlags: Value, start: Value, count: Value,
                                    flags': Value, excludeFlags': Value, start': Value, count': Value,
                                    sortRegionName: Value, sortLocX: Value, sortLocY: Value, asArray: Value)
    requires IsSet(flags) && IsSet(flags') && IsSet(excludeFlags) && IsSet(excludeFlags')
    requires CoerceDigits(flags) == CoerceDigits(flags') && CoerceDigits(excludeFlags) == CoerceDigits(excludeFlags')
    requires CoerceDigits(start) == CoerceDigits(start') && CoerceDigits(count) == CoerceDigits(count')
    ensures GetRegionsRequest(rf, flags, excludeFlags, start, count, sortRegionName, sortLocX, sortLocY, asArray)
         == GetRegionsRequest(rf, flags', excludeFlags', start', count', sortRegionName, sortLocX, sortLocY, asArray)
  {
  }

  /**
   * The defaults GetRegions applies before anything else: null flags mean
   * RegionOnline and null exclude flags mean 0, whatever the other arguments.
   */
  lemma GetRegionsDefaults(rf: RegionFlags, flags: Value, excludeFlags: Value, start: Value, count: Value,
                           sortRegionName: Value, sortLocX: Value, sortLocY: Value, asArray: Value)
    ensures GetRegionsRequest(rf, Null, excludeFlags, start, count, sortRegionName, sortLocX, sortLocY, asArray)
         == GetRegionsRequest(rf, Int(rf.regionOnline), excludeFlags, start, count,
                              sortRegionName, sortLocX, sortLocY, asArray)
    ensures GetRegionsRequest(rf, flags, Null, start, count, sortRegionName, sortLocX, sortLocY, asArray)
         == GetRegionsRequest(rf, flags, Int(0), start, count, sortRegionName, sortLocX, sortLocY, asArray)
    ensures GetRegionsRequest(rf, Null, Null, start, count, sortRegionName, sortLocX, sortLocY, asArray)
         == BuildGetRegions(rf, Int(rf.regionOnline), Int(0), CoerceDigits(start), CoerceDigits(count),
                            sortRegionName, sortLocX, sortLocY, asArray)
  {
  }

  /** Zero-padding a digit-string start or count ("007" for "7") changes nothing. */
  lemma GetRegionsZeroPadded(rf: RegionFlags, flags: Value, excludeFlags: Value, start: string, count: string,
                             sortRegionName: Value, sortLocX: Value, sortLocY: Value, asArray: Value)
    requires IsDigitString(start) && IsDigitString(count)
    ensures GetRegionsRequest(rf, flags, excludeFlags, Str("0" + start), Str("0" + count),
                              sortRegionName, sortLocX, sortLocY, asArray)
         == GetRegionsRequest(rf, flags, excludeFlags, Str(start), Str(count),
                              sortRegionName, sortLocX, sortLocY, asArray)
  {
    assert CoerceDigits(Str("0" + start)) == CoerceDigits(Str(start)) by { CoerceIgnoresLeadingZero(start); }
    assert CoerceDigits(Str("0" + count)) == CoerceDigits(Str(count)) by { CoerceIgnoresLeadingZero(count); }
  }

  /** Passing digit strings instead of the integers they denote changes nothing. */
  lemma GetRegionsDigitStrings(rf: RegionFlags, flags: string, excludeFlags: string, start: string, count: string,
                               sortRegionName: Value, sortLocX: Value, sortLocY: Value, asArray: Value)
    requires IsDigitString(flags) && IsDigitString(excludeFlags) && IsDigitString(start) && IsDigitString(count)
    requires DecimalValue(flags) <= PhpIntMax && DecimalValue(excludeFlags) <= PhpIntMax
    requires DecimalValue(start) <= PhpIntMax && DecimalValue(count) <= PhpIntMax
    ensures GetRegionsRequest(rf, Str(flags), Str(excludeFlags), Str(start), Str(count),
                              sortRegionName, sortLocX, sortLocY, asArray)
         == GetRegionsRequest(rf, Int(DecimalValue(flags)), Int(DecimalValue(excludeFlags)),
                              Int(DecimalValue(start)), Int(DecimalValue(count)),
                              sortRegionName, sortLocX, sortLocY, asArray)
  {
    assert CoerceDigits(Str(flags)) == CoerceDigits(Int(DecimalValue(flags))) by { CoerceDigitString(flags); }
    assert CoerceDigits(Str(excludeFlags)) == CoerceDigits(Int(DecimalValue(excludeFlags))) by {
      CoerceDigitString(excludeFlags);
    }
    assert CoerceDigits(Str(start)) == CoerceDigits(Int(DecimalValue(start))) by { CoerceDigitString(start); }
    assert CoerceDigits(Str(count)) == CoerceDigits(Int(DecimalValue(count))) by { CoerceDigitString(count); }
    GetRegionsSeesCoercedValues(rf, Str(flags), Str(excludeFlags), Str(start), Str(count),
                                Int(DecimalValue(flags)), Int(DecimalValue(excludeFlags)),
                                Int(DecimalValue(start)), Int(DecimalValue(count)),
                                sortRegionName, sortLocX, sortLocY, asArray);
  }

  /** The errors GetRegionsInEstate raises, in order; this method coerces nothing. */
  function GetRegionsInEstateError(rf: RegionFlags, flags: Value, start: Value, count: Value,
                                   sortRegionName: Value, sortLocX: Value, sortLocY: Value, asArray: Value)
    : Outcome<ArgError>
  {
    if !asArray.Bool? then Fail(NotBoolean("asArray"))
    else if !flags.Int? then Fail(NotInteger("RegionFlags"))
    else if flags.i < 0 then Fail(Negative("RegionFlags"))
    else if !rf.isValid(flags.i) then Fail(InvalidFlags("RegionFlags"))
    else if !start.Int? then Fail(NotInteger("Start"))
    else CheckCountThenSorts(count, sortRegionName, sortLocX, sortLocY)
  }

  /**
   * The `Sort` sub-map of GetRegionsInEstate. Its guard tests the region-name
   * flag twice and never the x-axis flag, so the map exists only when the
   * region-name or the y-axis flag is set; inside it, each set flag has its key.
   */
  function EstateSort(sortRegionName: Value, sortLocX: Value, sortLocY: Value): (r: Option<map<string, Value>>)
    ensures r.Some? <==> IsSet(sortRegionName) || IsSet(sortLocY)
    ensures r.Some? ==>
      && ("RegionName" in r.value <==> IsSet(sortRegionName))
      && ("LocX" in r.value <==> IsSet(sortLocX))
      && ("LocY" in r.value <==> IsSet(sortLocY))
      && (IsSet(sortRegionName) ==> r.value["RegionName"] == sortRegionName)
      && (IsSet(sortLocX) ==> r.value["LocX"] == sortLocX)
      && (IsSet(sortLocY) ==> r.value["LocY"] == sortLocY)
      && r.value.Keys <= {"RegionName", "LocX", "LocY"}
  {
    if IsSet(sortRegionName) || IsSet(sortRegionName) || IsSet(sortLocY) then
      Some(AddIfSet(AddIfSet(AddIfSet(map[], "RegionName", sortRegionName), "LocX", sortLocX), "LocY", sortLocY))
    else None
  }

  /** GetRegionsInEstate up to the remote call. */
  function GetRegionsInEstateRequest(rf: RegionFlags, estateId: Value, flags: Value, start: Value, count: Value,
                                     sortRegionName: Value, sortLocX: Value, sortLocY: Value, asArray: Value)
    : (r: Result<map<string, Value>, ArgError>)
    ensures
      var f := if IsSet(flags) then flags else Int(rf.regionOnline);
      && (r.Success? <==>
            GetRegionsInEstateError(rf, f, start, count, sortRegionName, sortLocX, sortLocY, asArray).Pass?)
      && (r.Failure? ==>
            r.error == GetRegionsInEstateError(rf, f, start, count, sortRegionName, sortLocX, sortLocY, asArray).error)
      && (r.Success? ==>
            && {"Estate", "RegionFlags", "Start", "Count"} <= r.value.Keys
            && r.value["Estate"] == estateId
            && r.value["RegionFlags"] == f && f.Int? && f.i >= 0 && rf.isValid(f.i)
            && r.value["Start"] == start && start.Int?
            && r.value["Count"] == count
            && ("Sort" in r.value <==> EstateSort(sortRegionName, sortLocX, sortLocY).Some?)
            && ("Sort" in r.value ==> r.value["Sort"] == Dict(EstateSort(sortRegionName, sortLocX, sortLocY).value))
            && r.value.Keys <= {"Estate", "RegionFlags", "Start", "Count", "Sort"})
  {
    var f := if IsSet(flags) then flags else Int(rf.regionOnline);
    var err := GetRegionsInEstateError(rf, f, start, count, sortRegionName, sortLocX, sortLocY, asArray);
    if err.Fail? then Failure(err.error)
    else
      var input := map["Estate" := estateId, "RegionFlags" := f, "Start" := start, "Count" := count];
      var sort := EstateSort(sortRegionName, sortLocX, sortLocY);
      Success(if sort.Some? then input["Sort" := Dict(sort.value)] else input)
  }

  /** A y-axis sort flag alone is sent; an x-axis sort flag alone is silently dropped. */
  lemma EstateSortDropsLocXAlone(rf: RegionFlags, estateId: Value, start: int, b: bool)
    requires rf.isValid(rf.regionOnline) && rf.regionOnline >= 0
    ensures var r := GetRegionsInEstateRequest(rf, estateId, Null, Int(start), Null, Null, Bool(b), Null, Bool(false));
      r.Success? && "Sort" !in r.value
    ensures var r := GetRegionsInEstateRequest(rf, estateId, Null, Int(start), Null, Null, Null, Bool(b), Bool(false));
      r.Success? && r.value["Sort"] == Dict(map["LocY" := Bool(b)])
  {
  }
}

=== FILE: registries.dfy ===
/**
 * The two write-once registries of the WebUI client: `Configs`, an
 * integer-keyed table of client instances, and `BoolWORM`, a string-keyed
 * table of booleans. Both extend a `WORM` base class ("write once, read
 * many") whose `count()` is the number of entries and whose
 * `offsetExists($k)` is key membership; the base class itself is not part of
 * this model.
 */
module Registries {
  import opened Wrappers
  import opened PhpValues

  // ---------------------------------------------------------------- Configs

  datatype ConfigsError =
    | NotAClient        // "Only instances of Aurora::Addon::WebUI can be added ..."
    | OffsetNotInteger  // "Only integer offsets allowed."
    | Overwrite         // "Configs cannot be overwritten."
    | NoConfigs         // "No configs have been set."
  {
    function Kind(): ExceptionKind
    {
      if NoConfigs? then BadMethodCall else InvalidArgument
    }
  }

  predicate IsClient(v: Value)
  {
    IsInstanceOf(v, WebUIClient)
  }

  /**
   * `Configs::offsetSet($offset, $value)` on the table `data`: the new table,
   * or the exception it raises. A null offset means "append at count()".
   */
  function ConfigsSet(data: map<int, Value>, offset: Value, value: Value): Result<map<int, Value>, ConfigsError>
  {
    if !IsClient(value) then Failure(NotAClient)
    else if IsSet(offset) && !offset.Int? then Failure(OffsetNotInteger)
    else
      var slot := if IsSet(offset) then offset.i else |data|;
      if slot in data then Failure(Overwrite) else Success(data[slot := value])
  }

  /** The slot `offsetSet` writes to: the given integer offset, or the entry count. */
  function ConfigsSlot(data: map<int, Value>, offset: Value): int
    requires !IsSet(offset) || offset.Int?
  {
    if IsSet(offset) then offset.i else |data|
  }

  /**
   * `offsetSet` never overwrites: it fails, in this order, for a value that is
   * no client instance, for a non-integer non-null offset, and for an occupied
   * slot; otherwise it adds exactly that one entry and keeps all others.
   */
  lemma ConfigsSetSpec(data: map<int, Value>, offset: Value, value: Value)
    ensures var r := ConfigsSet(data, offset, value);
      && (r == Failure(NotAClient) <==> !IsClient(value))
      && (r == Failure(OffsetNotInteger) <==> IsClient(value) && IsSet(offset) && !offset.Int?)
      && (r == Failure(Overwrite) <==>
            IsClient(value) && (!IsSet(offset) || offset.Int?) && ConfigsSlot(data, offset) in data)
      && (r.Failure? ==> r.error.Kind() == InvalidArgument)
      && (r.Success? ==>
            && r.value.Keys == data.Keys + {ConfigsSlot(data, offset)}
            && ConfigsSlot(data, offset) !in data
            && |r.value| == |data| + 1
            && r.value[ConfigsSlot(data, offset)] == value
            && forall k :: k in data ==> r.value[k] == data[k])
  {
  }

  /** The keys of a table that only ever grew by appends: exactly 0 .. count()-1. */
  ghost predicate Dense(data: map<int, Value>)
  {
    forall k :: k in data <==> 0 <= k < |data|
  }

  /** Appending a client to a dense table always succeeds and keeps it dense. */
  lemma AppendKeepsDense(data: map<int, Value>, value: Value)
    requires Dense(data) && IsClient(value)
    ensures ConfigsSet(data, Null, value).Success?
    ensures Dense(ConfigsSet(data, Null, value).value)
  {
    assert |data| !in data;
  }

  /**
   * With a sparse table an append can collide: after an explicit write at
   * offset 1 into an empty table, `count()` is 1 and `$configs[] = $client` fails.
   */
  lemma SparseAppendCollides(first: Value, second: Value)
    requires IsClient(first) && IsClient(second)
    ensures ConfigsSet(map[], Int(1), first) == Success(map[1 := first])
    ensures ConfigsSet(map[1 := first], Null, second) == Failure(Overwrite)
  {
    assert |map[1 := first]| == 1;
  }

  /** The registry of client configurations, one per grid. */
  class Configs {
    var data: map<int, Value>

    /** Only client instances are ever stored. */
    ghost predicate Valid()
      reads this
    {
      forall k :: k in data ==> IsClient(data[k])
    }

    constructor ()
      ensures Valid() && data == map[]
    {
      data := map[];
    }

    function Count(): nat
      reads this
    {
      |data|
    }

    method OffsetSet(offset: Value, value: Value) returns (r: Outcome<ConfigsError>)
      requires Valid()
      modifies this
      ensures Valid()
      ensures ConfigsSet(old(data), offset, value).Success? ==>
        r == Pass && data == ConfigsSet(old(data), offset, value).value
      ensures ConfigsSet(old(data), offset, value).Failure? ==>
        r == Fail(ConfigsSet(old(data), offset, value).error) && data == old(data)
    {
      if !IsClient(value) {
        return Fail(NotAClient);
      } else if IsSet(offset) && !offset.Int? {
        return Fail(OffsetNotInteger);
      }
      var slot := if IsSet(offset) then offset.i else Count();
      if slot in data {
        return Fail(Overwrite);
      }
      data := data[slot := value];
      r := Pass;
    }

    /** `Configs::d()`: the configuration at offset 0, failing when there is none. */
    function D(): (r: Result<Value, ConfigsError>)
      reads this
      requires Valid()
      ensures r.Failure? <==> 0 !in data
      ensures r.Failure? ==> r.error == NoConfigs && r.error.Kind() == BadMethodCall
      ensures r.Success? ==> r.value == data[0] && IsClient(r.value)
    {
      if 0 !in data then Failure(NoConfigs) else Success(data[0])
    }
  }

  // ---------------------------------------------------------------- BoolWORM

  datatype WormError =
    | NotBoolean    // "Values must be boolean"
    | InvalidKey    // "Key was invalid"
    | CannotOverwrite  // "WORM instance values cannot be overwritten."
  {
    function Kind(): ExceptionKind
    {
      if CannotOverwrite? then BadMethodCall else InvalidArgument
    }
  }

  /** `[A-z]`: the ASCII range from 'A' to 'z', which also holds `[ \ ] ^ _` and the backtick. */
  predicate IsKeyStart(c: char)
  {
    'A' <= c <= 'z'
  }

  predicate IsKeyChar(c: char)
  {
    IsKeyStart(c) || IsDigit(c)
  }

  predicate IsKeyBody(s: string)
  {
    |s| > 0 && IsKeyStart(s[0]) && forall k :: 1 <= k < |s| ==> IsKeyChar(s[k])
  }

  /**
   * What `preg_match('/^[A-z][A-z0-9]*$/', $key) == 1` accepts; as with every
   * pattern ending in `$` without the D modifier, a final newline is tolerated.
   */
  predicate MatchesKeyPattern(s: string)
  {
    IsKeyBody(s) || (|s| >= 2 && s[|s| - 1] == '\n' && IsKeyBody(s[..|s| - 1]))
  }

  /** The string `preg_match` sees for an array key. */
  function KeyText(k: Key): string
  {
    match k
    case NullKey => ""
    case IntKey(n) => IntText(n)
    case StrKey(s) => s
  }

  /** Integer keys and the null key never pass the key check. */
  lemma NonStringKeysRejected(k: Key)
    requires !k.StrKey?
    ensures !MatchesKeyPattern(KeyText(k))
  {
  }

  /** `[A-z]` lets punctuation through: "_", "^x" and "`1" are accepted keys. */
  lemma PunctuationKeysAccepted()
    ensures MatchesKeyPattern("_") && MatchesKeyPattern("^x") && MatchesKeyPattern("`1")
    ensures !MatchesKeyPattern("1a") && !MatchesKeyPattern("a-b")
  {
    assert "a-b"[1] == '-' && "a-b"[2] == 'b';
  }

  /**
   * The exception the constructor's loop raises for `entries`, in order: the
   * first entry whose value is no boolean or whose key is invalid decides.
   */
  function FirstEntryError(entries: seq<(Key, Value)>): Option<WormError>
  {
    if entries == [] then None
    else if !entries[0].1.Bool? then Some(NotBoolean)
    else if !MatchesKeyPattern(KeyText(entries[0].0)) then Some(InvalidKey)
    else FirstEntryError(entries[1..])
  }

  predicate ValidEntry(e: (Key, Value))
  {
    e.1.Bool? && MatchesKeyPattern(KeyText(e.0))
  }

  /** Construction succeeds exactly when every value is a boolean and every key is valid. */
  lemma {:induction false} FirstEntryErrorNone(entries: seq<(Key, Value)>)
    ensures FirstEntryError(entries).None? <==> forall i :: 0 <= i < |entries| ==> ValidEntry(entries[i])
  {
    if entries != [] {
      FirstEntryErrorNone(entries[1..]);
      assert forall i :: 1 <= i < |entries| ==> entries[i] == entries[1..][i - 1];
    }
  }

  /** The error reported is that of the first invalid entry, checking its value before its key. */
  lemma {:induction false} FirstEntryErrorIsFirst(entries: seq<(Key, Value)>, j: nat)
    requires j < |entries| && !ValidEntry(entries[j])
    requires forall i :: 0 <= i < j ==> ValidEntry(entries[i])
    ensures FirstEntryError(entries) == Some(if entries[j].1.Bool? then InvalidKey else NotBoolean)
  {
    if j > 0 {
      FirstEntryErrorIsFirst(entries[1..], j - 1);
    }
  }

  /** The table `$this->data = $bools` holds once every entry is valid. */
  function BoolMap(entries: seq<(Key, Value)>): (m: map<string, bool>)
    requires forall i :: 0 <= i < |entries| ==> ValidEntry(entries[i])
    ensures forall k :: k in m ==> MatchesKeyPattern(k)
    ensures forall i :: 0 <= i < |entries| ==> KeyText(entries[i].0) in m
  {
    if entries == [] then map[]
    else
      var last := entries[|entries| - 1];
      assert ValidEntry(last);
      BoolMap(entries[..|entries| - 1])[KeyText(last.0) := last.1.b]
  }

  /** The table holds no key other than those of the entries. */
  lemma {:induction false} BoolMapKeys(entries: seq<(Key, Value)>)
    requires forall i :: 0 <= i < |entries| ==> ValidEntry(entries[i])
    ensures forall k :: k in BoolMap(entries) ==> exists i :: 0 <= i < |entries| && KeyText(entries[i].0) == k
  {
    if entries != [] {
      var n := |entries| - 1;
      var prefix := entries[..n];
      assert ValidEntry(entries[n]);
      assert BoolMap(entries) == BoolMap(prefix)[KeyText(entries[n].0) := entries[n].1.b];
      BoolMapKeys(prefix);
      forall k | k in BoolMap(entries)
        ensures exists i :: 0 <= i < |entries| && KeyText(entries[i].0) == k
      {
        if k == KeyText(entries[n].0) {
          assert KeyText(entries[n].0) == k;
        } else {
          var i :| 0 <= i < n && KeyText(prefix[i].0) == k;
          assert prefix[i] == entries[i];
        }
      }
    }
  }

  /** Each key of the table holds the boolean of the last entry that has that key. */
  lemma {:induction false} BoolMapValues(entries: seq<(Key, Value)>, i: nat)
    requires forall i :: 0 <= i < |entries| ==> ValidEntry(entries[i])
    requires i < |entries| && IsLastOfKey(entries, i)
    ensures Bool(BoolMap(entries)[KeyText(entries[i].0)]) == entries[i].1
  {
    var n := |entries| - 1;
    var prefix := entries[..n];
    assert ValidEntry(entries[n]);
    assert BoolMap(entries) == BoolMap(prefix)[KeyText(entries[n].0) := entries[n].1.b];
    if i < n {
      assert prefix[i] == entries[i];
      assert KeyText(entries[n].0) != KeyText(entries[i].0);
      assert IsLastOfKey(prefix, i) by {
        forall j | i < j < n
          ensures KeyText(prefix[j].0) != KeyText(prefix[i].0)
        {
          assert prefix[j] == entries[j];
        }
      }
      BoolMapValues(prefix, i);
    }
  }

  /** No later entry has the same key as entry `i`. */
  predicate IsLastOfKey(entries: seq<(Key, Value)>, i: int)
    requires 0 <= i < |entries|
  {
    forall j :: i < j < |entries| ==> KeyText(entries[j].0) != KeyText(entries[i].0)
  }

  /**
   * `BoolWORM::offsetSet($offset, $value)`: it validates and then returns
   * without storing anything. A pass therefore leaves the key absent.
   */
  function BoolWormSet(data: map<string, bool>, offset: Key, value: Value): (r: Outcome<WormError>)
    ensures r.Pass? <==> value.Bool? && MatchesKeyPattern(KeyText(offset)) && KeyText(offset) !in data
    ensures r == Fail(NotBoolean) <==> !value.Bool?
    ensures r == Fail(CannotOverwrite) <==>
      value.Bool? && MatchesKeyPattern(KeyText(offset)) && KeyText(offset) in data
    ensures r.Fail? ==> (r.error.Kind() == BadMethodCall <==> r.error == CannotOverwrite)
  {
    if !value.Bool? then Fail(NotBoolean)
    else if !MatchesKeyPattern(KeyText(offset)) then Fail(InvalidKey)
    else if KeyText(offset) in data then Fail(CannotOverwrite)
    else Pass
  }

  /** A write-once table of booleans keyed by identifier-like strings. */
  class BoolWorm {
    var data: map<string, bool>

    ghost predicate Valid()
      reads this
    {
      forall k :: k in data ==> MatchesKeyPattern(k)
    }

    constructor FromEntries(entries: seq<(Key, Value)>)
      requires forall i :: 0 <= i < |entries| ==> ValidEntry(entries[i])
      ensures Valid() && data == BoolMap(entries)
    {
      data := BoolMap(entries);
    }

    /** The validation loop of the constructor: the error it raises, if any. */
    static method CheckEntries(entries: seq<(Key, Value)>) returns (err: Option<WormError>)
      ensures err == FirstEntryError(entries)
    {
      var i := 0;
      while i < |entries|
        invariant 0 <= i <= |entries|
        invariant FirstEntryError(entries) == FirstEntryError(entries[i..])
      {
        assert entries[i..][1..] == entries[i + 1..];
        if !entries[i].1.Bool? {
          return Some(NotBoolean);
        } else if !MatchesKeyPattern(KeyText(entries[i].0)) {
          return Some(InvalidKey);
        }
        i := i + 1;
      }
      return None;
    }

    /** `BoolWORM::f($bools)`: the table, or the exception the constructor raises. */
    static method F(entries: seq<(Key, Value)>) returns (r: Result<BoolWorm, WormError>)
      ensures r.Failure? <==> FirstEntryError(entries).Some?
      ensures r.Failure? ==> r.error == FirstEntryError(entries).value
      ensures r.Success? ==> forall i :: 0 <= i < |entries| ==> ValidEntry(entries[i])
      ensures r.Success? ==> fresh(r.value) && r.value.Valid() && r.value.data == BoolMap(entries)
    {
      var err := CheckEntries(entries);
      if err.Some? {
        return Failure(err.value);
      }
      FirstEntryErrorNone(entries);
      var w := new BoolWorm.FromEntries(entries);
      return Success(w);
    }

    /** `BoolWORM::offsetSet`: a check only; having no modifies clause, it cannot change `data`. */
    method OffsetSet(offset: Key, value: Value) returns (r: Outcome<WormError>)
      ensures r == BoolWormSet(data, offset, value)
      ensures r.Pass? ==> KeyText(offset) !in data
    {
      if !value.Bool? {
        return Fail(NotBoolean);
      } else if !MatchesKeyPattern(KeyText(offset)) {
        return Fail(InvalidKey);
      } else if KeyText(offset) in data {
        return Fail(CannotOverwrite);
      }
      return Pass;
    }
  }
}

=== FILE: requests.dfy ===
/**
 * The argument checks and request maps of the WebUI methods that take a
 * name-or-UUID, optional fields or free text: CreateEvent, EditGroupNotice,
 * GetParcel, GetGroup, SetHomeLocation and DeleteUser. Arguments that the
 * PHP signature types as objects (a GridRegion, a DateTime, a Vector3) are
 * passed in already rendered as the strings the request carries.
 */
module Requests {
  import opened Wrappers
  import opened PhpValues
  import opened Uuid
  import opened Arguments

  /** `if(is_string($v)) $v = trim($v);` */
  function TrimIfString(v: Value): Value
  {
    if v.Str? then Str(Trim(v.s)) else v
  }

  // ------------------------------------------------------------ CreateEvent

  /** The error chain of CreateEvent, on the coerced and trimmed arguments. */
  function CreateEventError(cover: Value, maturity: Value, eventFlags: Value, duration: Value,
                            name: Value, description: Value, category: Value): Outcome<ArgError>
  {
    if !cover.Int? then Fail(NotInteger("Cover"))
    else if cover.i < 0 then Fail(Negative("Cover"))
    else if !maturity.Int? then Fail(NotInteger("Maturity"))
    else if maturity.i < 0 then Fail(Negative("Maturity"))
    else if !eventFlags.Int? then Fail(NotInteger("Flags"))
    else if eventFlags.i < 0 then Fail(Negative("Flags"))
    else if !duration.Int? then Fail(NotInteger("Duration"))
    else if duration.i <= 0 then Fail(NotPositive("Duration"))
    else if !name.Str? then Fail(NotString("Name"))
    else if name.s == [] then Fail(Empty("Name"))
    else if !description.Str? then Fail(NotString("Description"))
    else if description.s == [] then Fail(Empty("Description"))
    else if !category.Str? then Fail(NotString("Category"))
    else if category.s == [] then Fail(Empty("Category"))
    else Pass
  }

  /** A non-negative integer. */
  predicate IsCount(v: Value)
  {
    v.Int? && v.i >= 0
  }

  /** A string that is not blank. */
  predicate IsText(v: Value)
  {
    v.Str? && Trim(v.s) != []
  }

  /**
   * The argument array CreateEvent sends, whose twelve keys are fixed; the
   * fields carry the same names and, once the checks pass, sharper types.
   */
  datatype NewEvent = NewEvent(creator: string, region: string, parcel: string, date: string,
                               cover: int, maturity: int, eventFlags: int, duration: int, position: string,
                               name: string, description: string, category: string)

  /** The check each argument of CreateEvent must pass on its own, in the order of the chain. */
  function CreateEventChecks(cover: Value, maturity: Value, eventFlags: Value, duration: Value,
                             name: Value, description: Value, category: Value): seq<Outcome<ArgError>>
  {
    [CheckCount(CoerceDigits(cover), "Cover"), CheckCount(CoerceDigits(maturity), "Maturity"),
     CheckCount(CoerceDigits(eventFlags), "Flags"), CheckPositive(CoerceDigits(duration), "Duration"),
     CheckText(name, "Name"), CheckText(description, "Description"), CheckText(category, "Category")]
  }

  /**
   * CreateEvent up to the remote call: the four numbers are coerced from digit
   * strings, the three texts are trimmed, and the event is always sent with the
   * nil UUID as its parcel. The error raised is that of the first argument, in
   * the order cover, maturity, flags, duration, name, description, category,
   * that fails its own check.
   */
  function CreateEventRequest(creator: string, region: string, date: string, position: string,
                              cover: Value, maturity: Value, eventFlags: Value, duration: Value,
                              name: Value, description: Value, category: Value)
    : (r: Result<NewEvent, ArgError>)
    ensures r.Success? <==>
      && IsCount(CoerceDigits(cover)) && IsCount(CoerceDigits(maturity)) && IsCount(CoerceDigits(eventFlags))
      && CoerceDigits(duration).Int? && CoerceDigits(duration).i > 0
      && IsText(name) && IsText(description) && IsText(category)
    ensures OutcomeOf(r) == FirstFailure(CreateEventChecks(cover, maturity, eventFlags, duration,
                                                           name, description, category))
    ensures r.Success? ==>
      && r.value.creator == creator && r.value.region == region && r.value.parcel == NilUuid
      && r.value.date == date && r.value.position == position
      && Int(r.value.cover) == CoerceDigits(cover) && Int(r.value.maturity) == CoerceDigits(maturity)
      && Int(r.value.eventFlags) == CoerceDigits(eventFlags) && Int(r.value.duration) == CoerceDigits(duration)
      && r.value.name == Trim(name.s) && r.value.description == Trim(description.s)
      && r.value.category == Trim(category.s)
  {
    var c, m, f, d := CoerceDigits(cover), CoerceDigits(maturity), CoerceDigits(eventFlags), CoerceDigits(duration);
    var n, ds, cat := TrimIfString(name), TrimIfString(description), TrimIfString(category);
    CreateEventChainIsFirstFailure(c, m, f, d, name, description, category);
    var err := CreateEventError(c, m, f, d, n, ds, cat);
    if err.Fail? then Failure(err.error)
    else Success(NewEvent(creator, region, NilUuid, date, c.i, m.i, f.i, d.i, position, n.s, ds.s, cat.s))
  }

  /** The chain of CreateEvent reports the first argument that fails its own check. */
  lemma CreateEventChainIsFirstFailure(c: Value, m: Value, f: Value, d: Value,
                                       name: Value, description: Value, category: Value)
    ensures CreateEventError(c, m, f, d, TrimIfString(name), TrimIfString(description), TrimIfString(category))
         == FirstFailure([CheckCount(c, "Cover"), CheckCount(m, "Maturity"), CheckCount(f, "Flags"),
                          CheckPositive(d, "Duration"), CheckText(name, "Name"),
                          CheckText(description, "Description"), CheckText(category, "Category")])
  {
    var cc, cm, cf, cd := CheckCount(c, "Cover"), CheckCount(m, "Maturity"), CheckCount(f, "Flags"),
                          CheckPositive(d, "Duration");
    var tn, td, tc := CheckText(name, "Name"), CheckText(description, "Description"), CheckText(category, "Category");
    var first := if cc.Fail? then cc else if cm.Fail? then cm else if cf.Fail? then cf else if cd.Fail? then cd
                 else if tn.Fail? then tn else if td.Fail? then td else tc;
    assert CreateEventError(c, m, f, d, TrimIfString(name), TrimIfString(description), TrimIfString(category))
        == first;
    assert FirstFailure([cc, cm, cf, cd, tn, td, tc]) == first by {
      FirstFailureOfSeven(cc, cm, cf, cd, tn, td, tc);
    }
  }

  /**
   * The numbers are checked before the texts: with a valid cover, maturity,
   * flags and duration, a whitespace-only name is refused as empty, and a
   * zero duration is refused even when the name is not a string.
   */
  lemma CreateEventCheckOrder(creator: string, region: string, date: string, position: string, blank: string,
                              name: Value, description: Value, category: Value)
    requires forall k :: 0 <= k < |blank| ==> IsTrimChar(blank[k])
    ensures CreateEventRequest(creator, region, date, position, Int(0), Int(0), Int(0), Int(1),
                               Str(blank), description, category) == Failure(Empty("Name"))
    ensures CreateEventRequest(creator, region, date, position, Str("0"), Str("0"), Str("0"), Str("0"),
                               name, description, category) == Failure(NotPositive("Duration"))
  {
    TrimBlank(blank);
    assert IsDigitString("0") && DecimalValue("0") == 0;
    CoerceDigitString("0");
    assert CreateEventError(Int(0), Int(0), Int(0), Int(0), TrimIfString(name), TrimIfString(description),
                            TrimIfString(category)) == Fail(NotPositive("Duration"));
  }

  // -------------------------------------------------------- EditGroupNotice

  /** What EditGroupNotice does once its arguments pass: nothing, or send an edit. */
  datatype NoticeEdit = Unchanged | Send(input: map<string, Value>)

  /** A text that may be null, meaning "no change"; when given it must be a non-blank string. */
  function CheckOptionalText(v: Value, param: string): Outcome<ArgError>
  {
    if IsSet(v) then CheckText(v, param) else Pass
  }

  /**
   * The subject and message checks, which EditGroupNotice runs first: the
   * subject's error before the message's, a wrong type before a blank text.
   */
  function NoticeTextError(subject: Value, message: Value): (r: Outcome<ArgError>)
    ensures r.Pass? <==> (!IsSet(subject) || IsText(subject)) && (!IsSet(message) || IsText(message))
    ensures r == FirstFailure([CheckOptionalText(subject, "Subject"), CheckOptionalText(message, "Message")])
  {
    FirstFailureCons(CheckOptionalText(subject, "Subject"), [CheckOptionalText(message, "Message")]);
    FirstFailureCons(CheckOptionalText(message, "Message"), []);
    if IsSet(subject) && !subject.Str? then Fail(NotString("Subject"))
    else if IsSet(subject) && Trim(subject.s) == [] then Fail(Empty("Subject"))
    else if IsSet(message) && !message.Str? then Fail(NotString("Message"))
    else if IsSet(message) && Trim(message.s) == [] then Fail(Empty("Message"))
    else Pass
  }

  /**
   * EditGroupNotice as written: after the text checks it returns true without
   * calling the API unless BOTH the subject and the message are given, so the
   * notice is only checked, and an edit only sent, when both are.
   */
  function EditGroupNoticePlan(notice: Value, subject: Value, message: Value): (r: Result<NoticeEdit, ArgError>)
    ensures r == Success(Unchanged) <==>
      NoticeTextError(subject, message).Pass? && (!IsSet(subject) || !IsSet(message))
    ensures r.Success? && r.value.Send? <==>
      && NoticeTextError(subject, message).Pass? && IsSet(subject) && IsSet(message)
      && CheckUuid(Unwrap(notice, GroupNoticeData), "NoticeID").Pass?
    ensures r.Failure? ==>
      r.error == if NoticeTextError(subject, message).Fail? then NoticeTextError(subject, message).error
                 else CheckUuid(Unwrap(notice, GroupNoticeData), "NoticeID").error
    ensures r.Success? && r.value.Send? ==>
      && subject.Str? && message.Str?
      && CheckUuid(Unwrap(notice, GroupNoticeData), "NoticeID").Pass?
      && r.value.input == map["NoticeID" := Unwrap(notice, GroupNoticeData),
                              "Subject" := Str(Trim(subject.s)), "Message" := Str(Trim(message.s))]
  {
    var textCheck := NoticeTextError(subject, message);
    if textCheck.Fail? then Failure(textCheck.error)
    else if !IsSet(subject) || !IsSet(message) then Success(Unchanged)
    else
      var id := Unwrap(notice, GroupNoticeData);
      var idCheck := CheckUuid(id, "NoticeID");
      if idCheck.Fail? then Failure(idCheck.error)
      else
        var input := map["NoticeID" := id];
        var withSubject := if IsSet(subject) then input["Subject" := Str(Trim(subject.s))] else input;
        Success(Send(if IsSet(message) then withSubject["Message" := Str(Trim(message.s))] else withSubject))
  }

  /** A new subject given alone is dropped without any call, even for a notice that is no UUID. */
  lemma SubjectOnlyEditDropped(notice: Value, subject: string)
    requires Trim(subject) != []
    ensures EditGroupNoticePlan(notice, Str(subject), Null) == Success(Unchanged)
  {
  }

  /**
   * EditGroupNotice as its early return's comment and its optional `Subject`
   * and `Message` keys intend it: nothing is sent only when neither is given.
   */
  function EditGroupNoticeIntended(notice: Value, subject: Value, message: Value): (r: Result<NoticeEdit, ArgError>)
    ensures r == Success(Unchanged) <==> NoticeTextError(subject, message).Pass? && !IsSet(subject) && !IsSet(message)
    ensures r.Success? && r.value.Send? <==>
      && NoticeTextError(subject, message).Pass? && (IsSet(subject) || IsSet(message))
      && CheckUuid(Unwrap(notice, GroupNoticeData), "NoticeID").Pass?
    ensures r.Failure? ==>
      r.error == if NoticeTextError(subject, message).Fail? then NoticeTextError(subject, message).error
                 else CheckUuid(Unwrap(notice, GroupNoticeData), "NoticeID").error
    ensures r.Success? && r.value.Send? ==>
      && CheckUuid(Unwrap(notice, GroupNoticeData), "NoticeID").Pass?
      && "NoticeID" in r.value.input && r.value.input["NoticeID"] == Unwrap(notice, GroupNoticeData)
      && ("Subject" in r.value.input <==> IsSet(subject))
      && ("Message" in r.value.input <==> IsSet(message))
      && (IsSet(subject) ==> subject.Str? && r.value.input["Subject"] == Str(Trim(subject.s)))
      && (IsSet(message) ==> message.Str? && r.value.input["Message"] == Str(Trim(message.s)))
      && r.value.input.Keys <= {"NoticeID", "Subject", "Message"}
  {
    var textCheck := NoticeTextError(subject, message);
    if textCheck.Fail? then Failure(textCheck.error)
    else if !IsSet(subject) && !IsSet(message) then Success(Unchanged)
    else
      var id := Unwrap(notice, GroupNoticeData);
      var idCheck := CheckUuid(id, "NoticeID");
      if idCheck.Fail? then Failure(idCheck.error)
      else
        var input := map["NoticeID" := id];
        var withSubject := if IsSet(subject) then input["Subject" := Str(Trim(subject.s))] else input;
        Success(Send(if IsSet(message) then withSubject["Message" := Str(Trim(message.s))] else withSubject))
  }

  /** The two agree whenever both texts or neither are given, and differ exactly on a lone subject or message. */
  lemma EditGroupNoticeVersionsCompared(notice: Value, subject: Value, message: Value)
    ensures IsSet(subject) == IsSet(message) ==>
      EditGroupNoticePlan(notice, subject, message) == EditGroupNoticeIntended(notice, subject, message)
    ensures IsSet(subject) != IsSet(message) && NoticeTextError(subject, message).Pass? ==>
      && EditGroupNoticePlan(notice, subject, message) == Success(Unchanged)
      && EditGroupNoticeIntended(notice, subject, message) != Success(Unchanged)
  {
    if IsSet(subject) == IsSet(message) {
      EditGroupNoticeBothOrNeither(notice, subject, message);
    }
  }

  /** With both texts or neither given, the two versions take the same branch. */
  lemma EditGroupNoticeBothOrNeither(notice: Value, subject: Value, message: Value)
    requires IsSet(subject) == IsSet(message)
    ensures EditGroupNoticePlan(notice, subject, message) == EditGroupNoticeIntended(notice, subject, message)
  {
    if NoticeTextError(subject, message).Pass? && IsSet(subject) {
      var id := Unwrap(notice, GroupNoticeData);
      if CheckUuid(id, "NoticeID").Pass? {
        var input := map["NoticeID" := id, "Subject" := Str(Trim(subject.s)), "Message" := Str(Trim(message.s))];
        assert EditGroupNoticePlan(notice, subject, message) == Success(Send(input));
        assert EditGroupNoticeIntended(notice, subject, message) == Success(Send(input));
      }
    }
  }

  // -------------------------------------------------------------- GetParcel

  /** A lookup by name needs the region; a parcel that matches the pattern does not. */
  function CheckRegionGiven(parcel: Value, region: Option<string>): Outcome<ArgError>
  {
    if parcel.Str? && !MatchesUuidPattern(parcel.s) && region.None? then Fail(RegionRequired) else Pass
  }

  /**
   * GetParcel: a parcel string that matches the UUID pattern is looked up by
   * its info id; any other string is a parcel name, looked up in the given
   * region and scope, and then a region is required. The parcel's type is checked
   * before the scope, and the region last.
   */
  function GetParcelRequest(parcel: Value, region: Option<string>, scopeId: Value)
    : (r: Result<map<string, Value>, ArgError>)
    ensures OutcomeOf(r) == FirstFailure([CheckString(parcel, "Parcel"), CheckUuid(scopeId, "ScopeID"),
                                          CheckRegionGiven(parcel, region)])
    ensures r.Success? <==>
      parcel.Str? && CheckUuid(scopeId, "ScopeID").Pass? && (MatchesUuidPattern(parcel.s) || region.Some?)
    ensures r.Success? && MatchesUuidPattern(parcel.s) ==> r.value == map["ParcelInfoUUID" := parcel]
    ensures r.Success? && !MatchesUuidPattern(parcel.s) ==>
      r.value == map["RegionID" := Str(region.value), "ScopeID" := scopeId, "Parcel" := Str(Trim(parcel.s))]
    ensures r == Failure(RegionRequired) <==>
      parcel.Str? && CheckUuid(scopeId, "ScopeID").Pass? && !MatchesUuidPattern(parcel.s) && region.None?
  {
    FirstFailureCons(CheckString(parcel, "Parcel"), [CheckUuid(scopeId, "ScopeID"), CheckRegionGiven(parcel, region)]);
    FirstFailureCons(CheckUuid(scopeId, "ScopeID"), [CheckRegionGiven(parcel, region)]);
    FirstFailureCons(CheckRegionGiven(parcel, region), []);
    if !parcel.Str? then Failure(NotString("Parcel"))
    else if !scopeId.Str? then Failure(NotString("ScopeID"))
    else if RejectedByStrictCheck(scopeId.s) then Failure(NotUuid("ScopeID"))
    else if RejectedByStrictCheck(parcel.s) then
      if region.None? then Failure(RegionRequired)
      else Success(map["RegionID" := Str(region.value), "ScopeID" := scopeId, "Parcel" := Str(Trim(parcel.s))])
    else Success(map["ParcelInfoUUID" := parcel])
  }

  /** A parcel that does not match the pattern is looked up by its trimmed name in the given region. */
  lemma ParcelLookedUpByName(parcel: string, regionId: string, scopeId: string)
    requires !MatchesUuidPattern(parcel) && MatchesUuidPattern(scopeId)
    ensures GetParcelRequest(Str(parcel), Some(regionId), Str(scopeId))
         == Success(map["RegionID" := Str(regionId), "ScopeID" := Str(scopeId), "Parcel" := Str(Trim(parcel))])
  {
  }

  /** A UUID with one leading space is 37 characters long and does not end in a newline. */
  lemma PaddedUuidDoesNotMatch(id: string)
    requires IsUuid(id)
    ensures !MatchesUuidPattern([' '] + id)
  {
    assert ([' '] + id)[36] == id[35] && !IsHyphenPosition(35);
  }

  /** Trimming a UUID with one leading space gives the UUID back. */
  lemma PaddedUuidTrimmed(id: string)
    requires IsUuid(id)
    ensures Trim([' '] + id) == id
  {
    assert !IsHyphenPosition(0) && !IsHyphenPosition(35);
    TrimDropsLeading(' ', id);
    TrimKeepsClean(id);
  }

  /** A parcel name that is a UUID once trimmed but has leading whitespace is still looked up by name. */
  lemma PaddedParcelUuidIsAName(id: string, regionId: string, scopeId: string)
    requires IsUuid(id) && MatchesUuidPattern(scopeId)
    ensures GetParcelRequest(Str([' '] + id), Some(regionId), Str(scopeId))
         == Success(map["RegionID" := Str(regionId), "ScopeID" := Str(scopeId), "Parcel" := Str(id)])
  {
    PaddedUuidDoesNotMatch(id);
    PaddedUuidTrimmed(id);
    ParcelLookedUpByName([' '] + id, regionId, scopeId);
  }

  // --------------------------------------------------------------- GetGroup

  /**
   * GetGroup: the argument is trimmed; if the result matches the UUID pattern
   * the group is looked up by UUID, otherwise by name.
   */
  function GetGroupRequest(nameOrUuid: Value): (r: Result<map<string, Value>, ArgError>)
    ensures r.Failure? <==> !nameOrUuid.Str?
    ensures r.Failure? ==> r.error == NotString("nameOrUUID")
    ensures r.Success? ==>
      var t := Trim(nameOrUuid.s);
      r.value == if MatchesUuidPattern(t) then map["UUID" := Str(t)] else map["Name" := Str(t)]
    ensures r.Success? && "UUID" in r.value ==> r.value["UUID"].Str? && IsUuid(r.value["UUID"].s)
  {
    if !nameOrUuid.Str? then Failure(NotString("nameOrUUID"))
    else
      var t := Trim(nameOrUuid.s);
      if RejectedByStrictCheck(t) then Success(map["Name" := Str(t)]) else Success(map["UUID" := Str(t)])
  }

  // -------------------------------------------------------- SetHomeLocation

  /**
   * SetHomeLocation: the user (a UUID or a user object) must be a UUID; the
   * region, position and look-at point are each sent only when given.
   */
  function SetHomeLocationRequest(user: Value, region: Option<string>, position: Option<string>,
                                  lookAt: Option<string>): (r: Result<map<string, Value>, ArgError>)
    ensures r.Success? <==> CheckUuid(Unwrap(user, ServicesUser), "UUID").Pass?
    ensures r.Failure? ==> r == Failure(CheckUuid(Unwrap(user, ServicesUser), "UUID").error)
    ensures r.Success? ==>
      && "User" in r.value && r.value["User"] == Unwrap(user, ServicesUser)
      && ("RegionID" in r.value <==> region.Some?)
      && ("Position" in r.value <==> position.Some?)
      && ("LookAt" in r.value <==> lookAt.Some?)
      && (region.Some? ==> r.value["RegionID"] == Str(region.value))
      && (position.Some? ==> r.value["Position"] == Str(position.value))
      && (lookAt.Some? ==> r.value["LookAt"] == Str(lookAt.value))
      && r.value.Keys <= {"User", "RegionID", "Position", "LookAt"}
  {
    var id := Unwrap(user, ServicesUser);
    var idCheck := CheckUuid(id, "UUID");
    if idCheck.Fail? then Failure(idCheck.error)
    else
      var input := map["User" := id];
      var withRegion := if region.Some? then input["RegionID" := Str(region.value)] else input;
      var withPosition := if position.Some? then withRegion["Position" := Str(position.value)] else withRegion;
      Success(if lookAt.Some? then withPosition["LookAt" := Str(lookAt.value)] else withPosition)
  }

  // ------------------------------------------------------------- DeleteUser

  /**
   * DeleteUser as written: the UUID is trimmed, and its pattern check compares
   * `preg_match` with `=== false`, which an integer result never is.
   */
  function DeleteUserRequest(user: Value): (r: Result<map<string, Value>, ArgError>)
    ensures r.Success? <==> Unwrap(user, AbstractUser).Str?
    ensures r.Failure? ==> r.error == NotString("UUID")
    ensures r.Success? ==> r.value == map["UserID" := Str(Trim(Unwrap(user, AbstractUser).s))]
  {
    var id := TrimIfString(Unwrap(user, AbstractUser));
    if !id.Str? then Failure(NotString("UUID"))
    else if RejectedByFalseCheck(id.s) then Failure(NotUuid("UUID"))
    else Success(map["UserID" := id])
  }

  /** Any string at all, UUID or not, is sent for deletion. */
  lemma DeleteUserSendsAnyString(s: string)
    requires !MatchesUuidPattern(Trim(s))
    ensures DeleteUserRequest(Str(s)).Success?
    ensures DeleteUserRequest(Str(s)).value["UserID"].Str?
    ensures !IsUuid(DeleteUserRequest(Str(s)).value["UserID"].s)
  {
  }

  /** DeleteUser with the `!== 1` comparison the other UUID checks of the client use. */
  function DeleteUserIntended(user: Value): (r: Result<map<string, Value>, ArgError>)
    ensures OutcomeOf(r) == CheckUuid(TrimIfString(Unwrap(user, AbstractUser)), "UUID")
    ensures r.Success? <==> Unwrap(user, AbstractUser).Str? && MatchesUuidPattern(Trim(Unwrap(user, AbstractUser).s))
    ensures r.Success? ==> r.value.Keys == {"UserID"} && r.value["UserID"].Str? && IsUuid(r.value["UserID"].s)
  {
    var id := TrimIfString(Unwrap(user, AbstractUser));
    if !id.Str? then Failure(NotString("UUID"))
    else if RejectedByStrictCheck(id.s) then Failure(NotUuid("UUID"))
    else
      Success(map["UserID" := id])
  }
}

=== FILE: responses.dfy ===
/**
 * What the WebUI client does with an answer after the schema validator has
 * accepted it: pairing avatar archive names with their snapshots, mapping the
 * ErrorCode of ConfirmUserEmailName to an exception, turning the `false`
 * placeholder of LastLogin/LastLogout into null, and the checks on the UUID
 * that CreateAccount gets back.
 */
module Responses {
  import opened Wrappers
  import opened PhpValues
  import opened Uuid
  import opened Arguments

  // ------------------------------------------------------ GetAvatarArchives

  /** `new basicAvatarArchive($name, $snapshot)`: the pair it is built from. */
  datatype Archive = Archive(name: Value, snapshot: Value)

  /** The archives built from the i-th name and the i-th snapshot, in order. */
  function Zip(names: seq<Value>, snapshots: seq<Value>): (r: seq<Archive>)
    requires |names| == |snapshots|
    ensures |r| == |names|
    ensures forall i :: 0 <= i < |r| ==> r[i] == Archive(names[i], snapshots[i])
  {
    if names == [] then []
    else Zip(names[..|names| - 1], snapshots[..|snapshots| - 1])
           + [Archive(names[|names| - 1], snapshots[|snapshots| - 1])]
  }

  function Names(archives: seq<Archive>): (r: seq<Value>)
    ensures |r| == |archives|
    ensures forall i :: 0 <= i < |r| ==> r[i] == archives[i].name
  {
    if archives == [] then [] else Names(archives[..|archives| - 1]) + [archives[|archives| - 1].name]
  }

  function Snapshots(archives: seq<Archive>): (r: seq<Value>)
    ensures |r| == |archives|
    ensures forall i :: 0 <= i < |r| ==> r[i] == archives[i].snapshot
  {
    if archives == [] then [] else Snapshots(archives[..|archives| - 1]) + [archives[|archives| - 1].snapshot]
  }

  /** Zipping loses nothing: the names and the snapshots can be read back from the archives. */
  lemma {:induction false} ZipUnzip(names: seq<Value>, snapshots: seq<Value>)
    requires |names| == |snapshots|
    ensures Names(Zip(names, snapshots)) == names
    ensures Snapshots(Zip(names, snapshots)) == snapshots
  {
    if names != [] {
      var n, s := names[..|names| - 1], snapshots[..|snapshots| - 1];
      ZipUnzip(n, s);
      var z := Zip(names, snapshots);
      assert z[..|z| - 1] == Zip(n, s);
      assert names == n + [names[|names| - 1]];
      assert snapshots == s + [snapshots[|snapshots| - 1]];
    }
  }

  /**
   * The post-processing of GetAvatarArchives: a LengthException when the two
   * lists differ in length, otherwise one archive per name, appended in order.
   */
  method ZipArchives(names: seq<Value>, snapshots: seq<Value>) returns (r: Result<seq<Archive>, ExceptionKind>)
    ensures r.Failure? <==> |names| != |snapshots|
    ensures r.Failure? ==> r.error == Length
    ensures r.Success? ==> |names| == |snapshots| && r.value == Zip(names, snapshots)
  {
    if |names| != |snapshots| {
      return Failure(Length);
    }
    var archives: seq<Archive> := [];
    var k := 0;
    while k < |names|
      invariant 0 <= k <= |names|
      invariant archives == Zip(names[..k], snapshots[..k])
    {
      assert names[..k + 1][..k] == names[..k];
      assert snapshots[..k + 1][..k] == snapshots[..k];
      archives := archives + [Archive(names[k], snapshots[k])];
      k := k + 1;
    }
    assert names[..k] == names && snapshots[..k] == snapshots;
    return Success(archives);
  }

  // --------------------------------------------------- ConfirmUserEmailName

  /** `is_email($email) === false`, reached only for a string. */
  function CheckEmail(email: Value, isEmail: string -> bool): Outcome<ArgError>
  {
    if email.Str? && !isEmail(email.s) then Fail(InvalidEmail("Email")) else Pass
  }

  /**
   * The argument checks and request map of ConfirmUserEmailName. The name is
   * trimmed, the email is not; `isEmail` is the library's is_email. The name
   * is checked in full before the email.
   */
  function ConfirmUserEmailNameRequest(name: Value, email: Value, isEmail: string -> bool)
    : (r: Result<map<string, Value>, ArgError>)
    ensures r.Success? <==> name.Str? && Trim(name.s) != [] && email.Str? && isEmail(email.s)
    ensures OutcomeOf(r) == FirstFailure([CheckText(name, "Name"), CheckString(email, "Email"),
                                          CheckEmail(email, isEmail)])
    ensures r.Success? ==> r.value == map["Name" := Str(Trim(name.s)), "Email" := email]
    ensures r == Failure(InvalidEmail("Email")) <==>
      name.Str? && Trim(name.s) != [] && email.Str? && !isEmail(email.s)
  {
    FirstFailureCons(CheckText(name, "Name"), [CheckString(email, "Email"), CheckEmail(email, isEmail)]);
    FirstFailureCons(CheckString(email, "Email"), [CheckEmail(email, isEmail)]);
    FirstFailureCons(CheckEmail(email, isEmail), []);
    var n := if name.Str? then Str(Trim(name.s)) else name;
    if !n.Str? then Failure(NotString("Name"))
    else if n.s == [] then Failure(Empty("Name"))
    else if !email.Str? then Failure(NotString("Email"))
    else if !isEmail(email.s) then Failure(InvalidEmail("Email"))
    else Success(map["Name" := n, "Email" := email])
  }

  /** The exceptions ConfirmUserEmailName raises from the answer's ErrorCode. */
  datatype ConfirmError =
    | UnexpectedType   // "... required response property was of unexpected type." (code 2)
    | NoAccount        // "No account was found with the specified name."
    | AccountDisabled  // "The specified account is disabled."
    | EmailMismatch    // "The specified email address does not match ..."
    | UnknownError     // "Unknown error occurred when checking email address ..."
  {
    function Kind(): ExceptionKind
    {
      if UnexpectedType? || UnknownError? then UnexpectedValue else InvalidArgument
    }
  }

  /**
   * The answer of ConfirmUserEmailName: `Verified` when ErrorCode is absent or
   * null; otherwise the exception its value selects, compared with `===`.
   */
  function ConfirmUserEmailNameResult(errorCode: Value, verified: bool): (r: Result<bool, ConfirmError>)
    ensures r.Success? <==> !IsSet(errorCode)
    ensures r.Success? ==> r.value == verified
    ensures r == Failure(UnexpectedType) <==> IsSet(errorCode) && !errorCode.Int?
    ensures r.Failure? && r.error.Kind() == InvalidArgument <==> errorCode.Int? && 1 <= errorCode.i <= 3
  {
    if IsSet(errorCode) && !errorCode.Int? then Failure(UnexpectedType)
    else if IsSet(errorCode) then
      if errorCode.i == 1 then Failure(NoAccount)
      else if errorCode.i == 2 then Failure(AccountDisabled)
      else if errorCode.i == 3 then Failure(EmailMismatch)
      else Failure(UnknownError)
    else Success(verified)
  }

  /** The ErrorCode the API sends for each account-related error. */
  function ErrorCodeOf(e: ConfirmError): int
    requires e.Kind() == InvalidArgument
  {
    match e
    case NoAccount => 1
    case AccountDisabled => 2
    case EmailMismatch => 3
  }

  /**
   * Every account-related exception is selected by exactly its own code, and
   * a code sent as the string "1" is no integer and so of unexpected type.
   */
  lemma ErrorCodesRoundTrip(e: ConfirmError, verified: bool)
    requires e.Kind() == InvalidArgument
    ensures ConfirmUserEmailNameResult(Int(ErrorCodeOf(e)), verified) == Failure(e)
    ensures ConfirmUserEmailNameResult(Str("1"), verified) == Failure(UnexpectedType)
  {
  }

  // -------------------------------------------------------- GetGridUserInfo

  /** The request of GetGridUserInfo: a UUID, or the PrincipalID of a user object. */
  function GetGridUserInfoRequest(user: Value): (r: Result<map<string, Value>, ArgError>)
    ensures OutcomeOf(r) == CheckUuid(Unwrap(user, ServicesUser), "UUID")
    ensures r.Success? ==> r.value == map["UUID" := Unwrap(user, ServicesUser)]
  {
    var id := Unwrap(user, ServicesUser);
    var idCheck := CheckUuid(id, "UUID");
    if idCheck.Fail? then Failure(idCheck.error) else Success(map["UUID" := id])
  }

  /** What the validator lets through for LastLogin and LastLogout: false or an integer timestamp. */
  predicate IsLastSeenField(v: Value)
  {
    v == Bool(false) || v.Int?
  }

  /** `$result->LastLogin === false ? null : $result->LastLogin`. */
  function LastSeen(v: Value): (r: Value)
    ensures IsLastSeenField(v) ==> (r.Null? <==> v == Bool(false)) && (r.Int? <==> v.Int?)
    ensures v != Bool(false) ==> r == v
  {
    if v == Bool(false) then Null else v
  }

  /** The inverse mapping, from what GridUserInfo receives back to what the API sent. */
  function LastSeenField(t: Value): (r: Value)
    ensures t.Null? ==> r == Bool(false)
    ensures !t.Null? ==> r == t
  {
    if t.Null? then Bool(false) else t
  }

  /** On the values the schema admits the mapping is a bijection onto null-or-integer. */
  lemma LastSeenRoundTrip(v: Value, t: Value)
    ensures IsLastSeenField(v) ==> LastSeenField(LastSeen(v)) == v
    ensures (t.Null? || t.Int?) ==> LastSeen(LastSeenField(t)) == t && IsLastSeenField(LastSeenField(t))
  {
  }

  // ---------------------------------------------------------- CreateAccount

  /** The exceptions CreateAccount raises on the answer it gets. */
  datatype RegistrationError =
    | NotAUuid          // "... UUID response was not a valid UUID."
    | RegistrationFailed
    | BadActivationToken
  {
    function Kind(): ExceptionKind { UnexpectedValue }
  }

  /**
   * The checks CreateAccount makes on the new account's UUID and, when
   * activation is required, on the activation token; the result is the token
   * handed back, or none. The first check compares `preg_match` with `=== false`.
   */
  function RegistrationResult(uuid: string, activationRequired: bool, token: string)
    : (r: Result<Option<string>, RegistrationError>)
    ensures r == Failure(RegistrationFailed) <==> uuid == NilUuid
    ensures r == Failure(BadActivationToken) <==>
      uuid != NilUuid && activationRequired && !MatchesUuidPattern(token)
    ensures r.Success? ==> r.value == (if activationRequired then Some(token) else None)
    ensures r != Failure(NotAUuid)
  {
    if RejectedByFalseCheck(uuid) then Failure(NotAUuid)
    else if uuid == NilUuid then Failure(RegistrationFailed)
    else if activationRequired then
      if RejectedByStrictCheck(token) then Failure(BadActivationToken) else Success(Some(token))
    else Success(None)
  }
}

=== FILE: uuid.dfy ===
/**
 * The `regex_UUID` constant of the WebUI client,
 * `/^[a-fA-F0-9]{8}\-[a-fA-F0-9]{4}\-[a-fA-F0-9]{4}\-[a-fA-F0-9]{4}\-[a-fA-F0-9]{12}$/`,
 * written out as a predicate, and the two ways the client compares the result of
 * `preg_match` against it.
 */
module Uuid {
  import opened PhpValues

  predicate IsHex(c: char)
  {
    '0' <= c <= '9' || 'a' <= c <= 'f' || 'A' <= c <= 'F'
  }

  predicate IsHexString(s: string)
  {
    forall k :: 0 <= k < |s| ==> IsHex(s[k])
  }

  predicate IsHyphenPosition(k: int)
  {
    k == 8 || k == 13 || k == 18 || k == 23
  }

  /** The 8-4-4-4-12 shape: hyphens at positions 8, 13, 18 and 23, hex digits elsewhere. */
  predicate IsUuid(s: string)
  {
    |s| == 36 && forall k :: 0 <= k < 36 ==> if IsHyphenPosition(k) then s[k] == '-' else IsHex(s[k])
  }

  /**
   * The subjects the pattern matches. Without the D modifier, PCRE's `$` also
   * matches just before a final newline, so a UUID followed by "\n" matches too.
   */
  predicate MatchesUuidPattern(s: string)
  {
    IsUuid(s) || (|s| == 37 && s[36] == '\n' && IsUuid(s[..36]))
  }

  /** `preg_match(self::regex_UUID, $s)` on a string: 1 on a match and 0 otherwise. */
  function PregMatchUuid(s: string): int
  {
    if MatchesUuidPattern(s) then 1 else 0
  }

  /** The all-zero UUID the client uses as "no region scope", "no parcel" and "registration failed". */
  const NilUuid: string := "00000000-0000-0000-0000-000000000000"

  function JoinGroups(a: string, b: string, c: string, d: string, e: string): string
  {
    a + "-" + b + "-" + c + "-" + d + "-" + e
  }

  /** Five hex groups of lengths 8, 4, 4, 4 and 12 joined by hyphens form a UUID. */
  lemma UuidFromGroups(a: string, b: string, c: string, d: string, e: string)
    requires |a| == 8 && |b| == 4 && |c| == 4 && |d| == 4 && |e| == 12
    requires IsHexString(a) && IsHexString(b) && IsHexString(c) && IsHexString(d) && IsHexString(e)
    ensures IsUuid(JoinGroups(a, b, c, d, e))
  {
    var s := JoinGroups(a, b, c, d, e);
    assert s[..8] == a && s[9..13] == b && s[14..18] == c && s[19..23] == d && s[24..] == e;
    forall k | 0 <= k < 36
      ensures if IsHyphenPosition(k) then s[k] == '-' else IsHex(s[k])
    {
      if k < 8 { assert s[k] == s[..8][k]; }
      else if 9 <= k < 13 { assert s[k] == s[9..13][k - 9]; }
      else if 14 <= k < 18 { assert s[k] == s[14..18][k - 14]; }
      else if 19 <= k < 23 { assert s[k] == s[19..23][k - 19]; }
      else if 24 <= k { assert s[k] == s[24..][k - 24]; }
    }
  }

  /** Every UUID splits into five hex groups of lengths 8, 4, 4, 4 and 12 joined by hyphens. */
  lemma UuidToGroups(s: string)
    requires IsUuid(s)
    ensures s == JoinGroups(s[..8], s[9..13], s[14..18], s[19..23], s[24..])
    ensures IsHexString(s[..8]) && IsHexString(s[9..13]) && IsHexString(s[14..18])
    ensures IsHexString(s[19..23]) && IsHexString(s[24..])
  {
    assert s[8] == '-' && s[13] == '-' && s[18] == '-' && s[23] == '-';
    assert s == s[..8] + [s[8]] + s[9..13] + [s[13]] + s[14..18] + [s[18]] + s[19..23] + [s[23]] + s[24..];
    forall k | 0 <= k < 8 ensures IsHex(s[..8][k]) { assert !IsHyphenPosition(k); }
    forall k | 0 <= k < 4
      ensures IsHex(s[9..13][k]) && IsHex(s[14..18][k]) && IsHex(s[19..23][k])
    {
      assert !IsHyphenPosition(9 + k) && !IsHyphenPosition(14 + k) && !IsHyphenPosition(19 + k);
    }
    forall k | 0 <= k < 12 ensures IsHex(s[24..][k]) { assert !IsHyphenPosition(24 + k); }
  }

  lemma NilUuidIsUuid()
    ensures IsUuid(NilUuid)
  {
    UuidFromGroups("00000000", "0000", "0000", "0000", "000000000000");
    assert JoinGroups("00000000", "0000", "0000", "0000", "000000000000") == NilUuid;
  }

  /** A UUID with a newline appended still passes the client's UUID checks, though it is no UUID. */
  lemma TrailingNewlineMatches(s: string)
    requires IsUuid(s)
    ensures MatchesUuidPattern(s + "\n") && !IsUuid(s + "\n")
  {
    assert (s + "\n")[..36] == s;
  }

  /** The check `preg_match(self::regex_UUID, $s) !== 1` (and its `!= 1` spelling). */
  predicate RejectedByStrictCheck(s: string)
  {
    PregMatchUuid(s) != 1
  }

  /** The check `preg_match(self::regex_UUID, $s) === false`: an integer is never identical to false. */
  predicate RejectedByFalseCheck(s: string)
  {
    Int(PregMatchUuid(s)) == Bool(false)
  }

  /** The strict check rejects exactly the non-matching strings; the `=== false` check rejects nothing. */
  lemma UuidChecksCompared(s: string)
    ensures RejectedByStrictCheck(s) <==> !MatchesUuidPattern(s)
    ensures !RejectedByFalseCheck(s)
  {
  }
}

=== FILE: wrappers.dfy ===
/** Failure-carrying wrappers shared by every module of the model. */
module Wrappers {

  datatype Option<+T> = None | Some(value: T)

  /** The result of an operation that either yields a value or raises an exception. */
  datatype Result<+R, +E> = Success(value: R) | Failure(error: E)

  /** The result of an operation that only checks (PHP: returns nothing or throws). */
  datatype Outcome<+E> = Pass | Fail(error: E)

  /** What a result says about the checks that led to it: passed, or failed with its error. */
  function OutcomeOf<R, E>(r: Result<R, E>): Outcome<E>
  {
    if r.Success? then Pass else Fail(r.error)
  }
}
